=== FILE: README.md ===
# smr-web core in Dafny

A model of the engine core of `smr-web`, a small browser runner game written
in TypeScript on top of a home-grown entity–component–system (ECS). The model
covers the following parts:

- **ECS bookkeeping.**
  - The per-type component store.
  - The entity storage facade: it hands out ids, registers component types
    and answers "which live entities have all of these components".
  - The tracking table, an entity → component-tuple table with O(1)
    swap-remove.
  - The entity pool: used/free partitioning with index swaps.
  - Aspects: query keys hashed from component names.
- **The event queue.** Per-name listener lists, a queue of deferred events,
  and delivery over a snapshot of the listener list.
- **The fixed-timestep game loop.** Delta clamping and smoothing, the
  accumulator, and fixed and variable updates.
- **Geometry and components.**
  - Axis-aligned boxes.
  - The Transform, Character and Lives components.
  - The FrameAnimation component: frame timing, the three play modes, frame
    lookup and spritesheet slicing.
  - The `range` helper.

The model is built from immutable values. Each source class becomes a
`datatype`. Each mutating method becomes a pure function from the old state to
the new one: a `method` where the source has a loop worth keeping. A `Valid`
predicate states each structure's invariant, for example that the index map
and the entry list are mutual inverses. JavaScript numbers are exact `real`s.
Entity ids in the storage facade are integers; the source uses their decimal
strings. The other tables are generic in the entity type.

Notes on the code:

- An aspect's hash joins the names in argument order, with no sorting. Two
  aspects over the same types in a different order therefore get different
  hashes (`Aspect.SwapChangesHash`).
- `removeEntity` deletes the entity from the live list and from every
  component store at once (`EntityStorage.RemoveEntity`).
- `GameLoop.step` smooths the clamped delta (`0.8·old + 0.2·new`) before
  adding it to the accumulator. A 250 ms frame therefore does not yield 250 ms
  of fixed updates. `GameLoop.StepAfterStall` works one such frame out
  exactly.

## Model

| member | source | states |
|---|---|---|
| ComponentStorage.Empty | src/core/component-storage.ts:4 | a new store holds no entity |
| ComponentStorage.Get | src/core/component-storage.ts:6-8 | the lookup yields a value exactly when the store has the entity, and that value is the stored one |
| ComponentStorage.Has | src/core/component-storage.ts:10-12 | the entity has a stored component; the contract of Get states that a lookup yields a value exactly when Has holds |
| ComponentStorage.Set | src/core/component-storage.ts:14-16 | afterwards the entity's component is the one set; every other entity's lookup is unchanged |
| ComponentStorage.Remove | src/core/component-storage.ts:18-22 | afterwards the entity has no component; removing an absent entity changes nothing; other entities are untouched |
| ComponentStorage.SetOverwrites | src/core/component-storage.ts:14-16 | setting twice is the same as setting only the second component |
| ComponentStorage.RemoveAfterSet | src/core/component-storage.ts:14-22 | set-then-remove is the same as remove alone: the store forgets the entity |
| EntityStorage.Init | src/core/entity-storage.ts:15-17 | a new storage has no live entity, no store, and a valid counter state |
| EntityStorage.RegisterComponentType | src/core/entity-storage.ts:19-21 | the name gets a fresh empty store (replacing any old one); other stores, live set and counter unchanged |
| EntityStorage.CreateEntity | src/core/entity-storage.ts:23-28 | the new id exceeds the last id and every live id, becomes the counter, and is live; the live set grows by exactly that id |
| EntityStorage.Without | src/core/entity-storage.ts:35 | deleting one entity from the live list keeps exactly the other members, in increasing order |
| EntityStorage.RemoveEntity | src/core/entity-storage.ts:30-36 | the entity is no longer live and no store has it; every other entity's liveness and components are unchanged |
| EntityStorage.SetComponent | src/core/entity-storage.ts:38-40 | the component is stored under its own type's name and read back; other entities and other stores unchanged |
| EntityStorage.GetHasAgree | src/core/entity-storage.ts:42-48 | `getComponent` returns a value exactly when `hasComponent` holds |
| EntityStorage.HasComponent | src/core/entity-storage.ts:46-48 | holds exactly when `getComponent` returns a value for that entity and type |
| EntityStorage.GetComponent | src/core/entity-storage.ts:42-44 | a component comes back exactly when the type's store has the entity, and it is the stored one |
| EntityStorage.GetComponents | src/core/entity-storage.ts:82-87 | position i of the result is the entity's component of the i-th requested type |
| EntityStorage.Matches | src/core/entity-storage.ts:94-100 | the early-exit inner loop accepts exactly the entities that have every listed type |
| EntityStorage.GetEntitiesWith | src/core/entity-storage.ts:89-106 | the result holds exactly the live entities with all listed types, each once, in creation order |
| EntityStorage.HasAllEmpty | src/core/entity-storage.ts:94-100 | with no types listed every entity qualifies |
| TrackingTable.Empty | src/core/tracking-table.ts:13-18 | a table starts with the given types, no entries, and a valid index |
| TrackingTable.NoDuplicates | src/core/tracking-table.ts:10-11 | in a valid table an entity occupies at most one entry |
| TrackingTable.Swap | src/core/tracking-table.ts:25-34 | exchanges two entries and keeps the index valid; all other positions unchanged; the entries are a permutation of the old ones |
| TrackingTable.SwapKeepsValid | src/core/tracking-table.ts:25-34 | re-pointing both indices after the exchange keeps index and entries mutual inverses |
| TrackingTable.GetEntityData | src/core/tracking-table.ts:36-41 | null exactly when no entry holds the entity; otherwise the entry for that entity |
| TrackingTable.GetEntries | src/core/tracking-table.ts:47-49 | the entries list every tracked entity, each at the position its index records |
| TrackingTable.AddIfNone | src/core/tracking-table.ts:51-58 | an untracked entity is appended at the end, with earlier entries and indices untouched; a tracked one gets its components replaced in place; the index stays valid |
| TrackingTable.RemoveIfExists | src/core/tracking-table.ts:60-71 | the entity is untracked afterwards; an absent entity changes nothing; otherwise the table shrinks by one, the last entry moves into the freed slot, and every other position and the multiset of other entries are kept |
| TrackingTable.RemoveTracked | src/core/tracking-table.ts:60-71 | for a tracked entity: after the swap to the end and the truncation the table is valid, one entry shorter, without that key, with the old last entry in the freed slot, every other position kept, and exactly the removed entry missing from the multiset |
| TrackingTable.DropLast | src/core/tracking-table.ts:66-69 | after swapping an entity to the end, truncating it and deleting its index leaves a valid table |
| TrackingTable.Build | src/core/tracking-table.ts:13-23 | the constructor yields a valid table with the given types and at most one entry per initial entry |
| TrackingTable.LastIndexOf | src/core/tracking-table.ts:20-22 | the last position of the entity among the initial entries, or -1 |
| TrackingTable.BuildContents | src/core/tracking-table.ts:13-23 | after construction an entity is tracked iff it occurs among the initial entries, and its components are those of its LAST occurrence |
| TrackingTable.ComponentTypesFixed | src/core/tracking-table.ts:13-71 | `getComponentTypes` returns the types the table was built with, before and after any add or remove |
| TrackingTable.GetComponentTypes | src/core/tracking-table.ts:43-45 | the types given at construction; ComponentTypesFixed proves they survive every add and remove |
| EntityPool.Empty | src/core/entity-pool.ts:2-4 | a new pool is valid and knows no entity |
| EntityPool.HasEntity | src/core/entity-pool.ts:6-8 | in a valid pool an entity is known exactly when some slot holds it |
| EntityPool.IsUsed | src/core/entity-pool.ts:10-12 | `isUsed` holds only for a known entity, and then it sits in a slot before the boundary; an unknown entity is not used |
| EntityPool.IsFree | src/core/entity-pool.ts:14-16 | `isFree` holds only for a known, unused entity, in a slot at or after the boundary; an unknown entity is not free |
| EntityPool.Partition | src/core/entity-pool.ts:6-16 | every known entity is used or free, never both; the two sets split the known set |
| EntityPool.NoDuplicates | src/core/entity-pool.ts:2-3 | no entity occupies two slots |
| EntityPool.Swap | src/core/entity-pool.ts:18-27 | exchanges two slots, keeps list and index inverse, leaves the boundary and every other slot as is |
| EntityPool.SwapIndex | src/core/entity-pool.ts:25-26 | an entity's new slot is its old one with the two swapped positions exchanged |
| EntityPool.AddNewUsed | src/core/entity-pool.ts:29-33 | the new entity becomes known and used; every old entity keeps its used/free status |
| EntityPool.MakeUsed | src/core/entity-pool.ts:35-38 | a free entity becomes used; every other entity keeps its status |
| EntityPool.MakeUnused | src/core/entity-pool.ts:40-43 | a used entity becomes free; every other entity keeps its status |
| EntityPool.AddUsedEntity | src/core/entity-pool.ts:45-47 | the used set grows by exactly the entity; the free set is unchanged |
| EntityPool.GetEntity | src/core/entity-pool.ts:49-56 | null exactly when no entity is free, and then nothing changes; otherwise the entity at the boundary moves from the free set to the used set and is returned |
| EntityPool.FreeEntity | src/core/entity-pool.ts:58-60 | the entity moves from the used set to the free set; nothing else moves |
| EntityPool.TryFreeEntity | src/core/entity-pool.ts:62-66 | afterwards the entity is not used; a no-op on a free or unknown entity; the known set never changes |
| EntityPool.TryFreeIdempotent | src/core/entity-pool.ts:62-66 | freeing twice is the same as freeing once |
| Aspect.All | src/core/aspect.ts:11-16 | the aspect lists the given types in order; one type gives that type's name as the hash; each name fits in the hash |
| Aspect.JoinContainsEach | src/core/aspect.ts:3-9 | every name occurs as a substring of the joined string, which is therefore at least as long as each name |
| Aspect.CalculateHash | src/core/aspect.ts:3-9 | `names.join('&')`: every name occurs in the hash, and for a non-empty list of '&'-free names splitting the hash at '&' gives back exactly the names |
| Aspect.JoinSplitsBack | src/core/aspect.ts:8 | split is a left inverse of join on non-empty lists of '&'-free names |
| Aspect.FirstSeparator | src/core/aspect.ts:8 | the position of the first '&' in a string, or its length when there is none |
| Aspect.SplitJoin | src/core/aspect.ts:3-9 | splitting the hash at '&' recovers the names, for a non-empty list of names without '&' |
| Aspect.FirstSeparatorAfterPrefix | src/core/aspect.ts:8 | in `name & rest` with an '&'-free name, the first '&' is right after the name |
| Aspect.HashInjective | src/core/aspect.ts:3-16 | for '&'-free names, two aspects have the same hash iff they list the same names in the same order |
| Aspect.SwapChangesHash | src/core/aspect.ts:3-9 | exchanging two different names changes the hash: the hash is order-sensitive |
| EventQueue.Init | src/core/event-queue.ts:15-18 | a new queue has no events and no listener lists |
| EventQueue.IndexOf | src/core/event-queue.ts:25 | `indexOf`: -1 exactly when absent, else the first position holding the listener |
| EventQueue.Subscribe | src/core/event-queue.ts:31-42 | the listener is appended to its name's list, which is created if missing; other lists and events unchanged; the handle names the pair |
| EventQueue.RemoveFirst | src/core/event-queue.ts:46-48 | `splice(indexOf(l), 1)`: drops exactly one copy of the listener (the first), keeps everything before it, shifts everything after; nothing happens when it is absent |
| EventQueue.RemoveAt | src/core/event-queue.ts:48 | splicing out one position shortens the list by one and removes exactly that element from its multiset |
| EventQueue.Unsubscribe | src/core/event-queue.ts:44-51 | removes the first copy of the listener from its name's list; no-op for an unknown name or listener; other lists, keys and events untouched |
| EventQueue.UnsubscribePresent | src/core/event-queue.ts:44-51 | when the listener is in its name's list, replacing that list by the spliced one keeps the names and every other list |
| EventQueue.UnsubscribeAbsent | src/core/event-queue.ts:44-51 | when the name is unknown or the listener is not in its list, the listener is not subscribed and splicing changes nothing |
| EventQueue.Cancel | src/core/event-queue.ts:37-41 | the handle's unsubscribe does what `unsubscribe(name, listener)` does: the name's list loses the first copy of the listener, every other list, the names and the events are kept, and nothing changes when the listener is not subscribed |
| EventQueue.SubscribeThenCancel | src/core/event-queue.ts:31-51 | subscribe followed by the handle's unsubscribe restores the list's multiset, and the exact list when the listener was not already there |
| EventQueue.Dispatch | src/core/event-queue.ts:53-55 | the event is appended to the queue; listeners untouched |
| EventQueue.Apply | src/core/event-queue.ts:31-51 | a listener's subscribe/unsubscribe call never drops a name and never touches the event queue |
| EventQueue.ApplyAll | src/core/event-queue.ts:31-51 | the same for a listener's whole sequence of calls |
| EventQueue.CalledAppend | src/core/event-queue.ts:24-28 | the listeners called for two consecutive stretches of delivery are the concatenation |
| EventQueue.CalledLength | src/core/event-queue.ts:24-28 | one called listener per call |
| EventQueue.Deliver | src/core/event-queue.ts:20-29 | walking the snapshot never drops a name or touches the event queue |
| EventQueue.StateAtTurn | src/core/event-queue.ts:24-28 | the queue as the walk reaches snapshot entry i, after the reactions of the earlier entries; the event's name stays known |
| EventQueue.TurnAfterFirst | src/core/event-queue.ts:24-28 | past the first entry, the walk over the snapshot is the walk over its tail from the queue the first entry left |
| EventQueue.DeliverOrder | src/core/event-queue.ts:20-29 | for any listeners: calls go to snapshot entries in snapshot order, one per entry at most, each carrying the event, and entry i is called exactly when its listener is still subscribed when the walk reaches it |
| EventQueue.PrependOrdered | src/core/event-queue.ts:24-28 | calls in snapshot order over the tail stay in order over the whole snapshot, with or without a call to the head |
| EventQueue.DeliverCallsFromSnapshot | src/core/event-queue.ts:20-29 | only listeners in the snapshot are called, each at most as often as it occurs there: a listener added during delivery is not called for that event |
| EventQueue.HandleEvent | src/core/event-queue.ts:20-29 | every call carries the event and goes to a listener subscribed when delivery began; at most one call per snapshot entry |
| EventQueue.HandleEventOrder | src/core/event-queue.ts:20-29 | `handleEvent` for any listeners: the calls follow subscription order, and a listener subscribed at delivery start is called exactly when it is still subscribed at its turn (so one removed by an earlier listener is skipped) |
| EventQueue.DispatchImmediately | src/core/event-queue.ts:57-59 | delivers at once, leaving the pending events as they are: the calls follow subscription order and reach exactly the listeners still subscribed at their turn; the listeners end as the walk leaves them; with listeners that do not touch the queue, every subscribed listener is called in order and nothing changes |
| EventQueue.KnownAtTurns | src/core/event-queue.ts:22-23 | each queued event finds a listener list when its turn comes, possibly one created by a listener of an earlier event |
| EventQueue.QueueBefore | src/core/event-queue.ts:62-64 | the queue as handling reaches the i-th event, after the earlier events' listeners ran; that event's name is known there, no name is lost and the pending events are untouched |
| EventQueue.KnownUpFront | src/core/event-queue.ts:22-23 | names that have a list before handling starts keep it, so every turn finds one |
| EventQueue.HandleEvents | src/core/event-queue.ts:61-66 | one batch per queued event, in dispatch order: batch i is what handling the i-th event does to the queue the earlier events left; the listeners end as the last event leaves them and the pending events are cleared |
| EventQueue.DeliverAll | src/core/event-queue.ts:62-64 | batch i is the calls `handleEvent` makes for event i from the queue the earlier events left, and the final queue is the one the last event leaves |
| EventQueue.PassiveDeliverAll | src/core/event-queue.ts:20-66 | with listeners that do not touch the queue, each queued event calls every listener of its name, in subscription order, and the listeners are unchanged |
| EventQueue.ListCreatedByEarlierEvent | src/core/event-queue.ts:31-66 | a "Bar" list created by a listener of an earlier "Foo" event receives the queued "Bar" event in the same pass |
| EventQueue.PassiveDeliverCallsAll | src/core/event-queue.ts:20-29 | when listeners do not touch the queue, every snapshot entry is called in order and the queue is unchanged |
| EventQueue.PassiveHandleEvent | src/core/event-queue.ts:20-29 | a listener subscribed k times is called k times for one event |
| EventQueue.FirstReactionRemovesSecond | src/core/event-queue.ts:44-51 | listener 1 unsubscribing listener 2 from [1, 2, 3] leaves [1, 3] |
| EventQueue.UnsubscribeSecondOfThree | src/core/event-queue.ts:44-51 | unsubscribing 2 from the list [1, 2, 3] gives [1, 3] |
| EventQueue.UnsubscribeOnlyList | src/core/event-queue.ts:44-51 | unsubscribing from a queue whose only list is the name's replaces that list by its spliced copy and keeps the events |
| EventQueue.RemoveSecondOfThree | src/core/event-queue.ts:46-48 | splicing 2 out of [1, 2, 3] gives [1, 3] |
| EventQueue.DeliverAfterRemoval | src/core/event-queue.ts:24-28 | a snapshot entry removed from the live list is skipped |
| EventQueue.HandleFooOnThree | src/core/event-queue.ts:20-29 | delivering to [1, 2, 3] while 1 removes 2 calls 1 and 3 only |
| EventQueue.DeliverFooOnThree | src/core/event-queue.ts:61-66 | that delivery yields one batch and leaves the list as [1, 3] |
| EventQueue.DeliverOne | src/core/event-queue.ts:61-66 | a batch of one event is exactly one `handleEvent`: one batch, the queue that event leaves |
| EventQueue.CalledOneAndThree | src/core/event-queue.ts:24-28 | the batch's called listeners are 1 then 3 |
| EventQueue.UnsubscribeDuringDelivery | src/core/event-queue.ts:20-29 | a listener removed mid-delivery by an earlier listener is not called |
| EventQueue.SubscribeDuringDelivery | src/core/event-queue.ts:20-42 | a listener added mid-delivery is not called for the current event but stays subscribed |
| GameLoop.New | src/core/game-loop.ts:16-28 | a new loop keeps the given timestep and has an empty accumulator, last delta equal to the timestep, no clock reading and no pending frame; it is valid exactly when the timestep is positive |
| GameLoop.Clamp | src/core/game-loop.ts:41 | the raw delta is clamped into [0, 250] ms, unchanged inside that range |
| GameLoop.Smooth | src/core/game-loop.ts:42 | the smoothed delta lies between the old and new deltas and moves exactly one fifth of the way |
| GameLoop.Drain | src/core/game-loop.ts:47-50 | only FixedUpdate(timestep) calls are made, each taking one timestep from the accumulator, until less than one timestep is left |
| GameLoop.WholeStepsBound | src/core/game-loop.ts:47-50 | the fixed-update loop runs at most floor(accumulated / timestep) times |
| GameLoop.Step | src/core/game-loop.ts:35-54 | the smoothed delta is 0.8·old + 0.2·clamped gap; floor((acc + delta) / timestep) fixed updates of one timestep each, then one variable update with the delta and alpha = remainder / timestep in [0, 1); time is conserved; the loop stays valid |
| GameLoop.FixedUpdateCount | src/core/game-loop.ts:47-53 | the number of fixed updates equals the number of whole timesteps accumulated, and alpha lies in [0, 1) |
| GameLoop.ScaleDiv | src/core/game-loop.ts:53 | c·t / t = c, which fixes alpha on the first frame |
| GameLoop.RunFrame | src/core/game-loop.ts:30-33 | a step followed by recording the next frame request: the step's smoothed delta and calls, and the new frame id |
| GameLoop.Reset | src/core/game-loop.ts:56-59 | start resets the clock reading, the accumulator and the last delta |
| GameLoop.Start | src/core/game-loop.ts:35-61 | resets at the first clock reading and steps at the second: the first delta is 0.8·timestep + 0.2·clamped gap between the readings, the calls are those of one frame from an empty accumulator; a gap under one timestep gives no fixed update; a gap of zero or less gives exactly one variable update of 0.8·timestep with alpha 0.8; a frame already pending is not cancelled but returned, and a later stop cancels only the new one |
| GameLoop.FirstFrame | src/core/game-loop.ts:45-53 | the first frame's arithmetic: less than one timestep of delta leaves no fixed update, and a zero gap leaves 0.8 of a timestep as remainder and alpha |
| GameLoop.OneStepAtMost | src/core/game-loop.ts:47-50 | less than one timestep in total leaves the fixed-update loop with nothing to do |
| GameLoop.Stop | src/core/game-loop.ts:63-69 | cancels the pending frame (returned) and zeroes the accumulator; a no-op when nothing is pending |
| GameLoop.StepAfterStall | src/core/game-loop.ts:35-54 | with a 100 ms timestep, a 250 ms gap gives one fixed update and a variable update of 130 ms with alpha 0.3 |
| Geometry.Aabb.Right | src/types/aabb.ts:30-32 | right edge minus left edge is the width |
| Geometry.Aabb.Bottom | src/types/aabb.ts:34-36 | bottom edge minus top edge is the height |
| Geometry.Aabb.HalfWidth | src/types/aabb.ts:38-40 | twice the half width is the width |
| Geometry.Aabb.HalfHeight | src/types/aabb.ts:42-44 | twice the half height is the height |
| Geometry.FromSize | src/types/aabb.ts:64-66 | the box has exactly the given corner and size |
| Geometry.FromCenteredSize | src/types/aabb.ts:68-70 | the box has the given size and is centred on the origin |
| Geometry.Intersect | src/types/aabb.ts:50-55 | for boxes of non-negative size, the closed intersection test holds exactly when the boxes' extents have a point in common on both axes |
| Geometry.GetOverlap | src/types/aabb.ts:57-62 | the overlap on each axis is the length of the common part of the two extents: non-negative exactly when they share a point, the largest distance between two shared points; it is no larger than either box's extent |
| Geometry.CommonInterval | src/types/aabb.ts:57-62 | the common part of two closed intervals runs from the larger start to the smaller end: that difference is non-negative exactly when they share a point, bounds the distance between any two shared points, and is attained by two shared points |
| Geometry.IntersectSymmetric | src/types/aabb.ts:46-55 | intersection is symmetric |
| Geometry.OverlapSymmetric | src/types/aabb.ts:57-62 | overlap is symmetric |
| Geometry.IntersectIffOverlapNonNegative | src/types/aabb.ts:50-62 | for boxes of non-negative size, intersecting is exactly having non-negative overlap on both axes |
| Geometry.TouchingEdgesIntersect | src/types/aabb.ts:50-55 | boxes that share only an edge intersect (closed test) with zero overlap |
| TransformComponent.New | src/components/transform.ts:9-14 | a new transform's last position equals its position |
| TransformComponent.MoveTo | src/components/transform.ts:16-22 | the old position becomes the last position; the new one is (x, y) |
| TransformComponent.MoveBy | src/components/transform.ts:24-26 | the position moves by (dx, dy); the old one is remembered |
| TransformComponent.TeleportTo | src/components/transform.ts:28-31 | position and last position both become (x, y) |
| TransformComponent.TeleportBy | src/components/transform.ts:33-35 | both move to the shifted point: nothing to interpolate |
| TransformComponent.MoveByIsMoveTo | src/components/transform.ts:16-35 | moveBy is moveTo of the shifted point; a move after a teleport remembers the teleport target |
| CharacterComponent.New | src/components/character.ts:4-9 | starts with zero score and is not a ghost |
| CharacterComponent.AddScore | src/components/character.ts:11-13 | the score grows by the amount; ghost time unchanged |
| CharacterComponent.MakeGhost | src/components/character.ts:15-17 | sets the ghost time; a positive time makes the character a ghost |
| CharacterComponent.TickGhost | src/components/character.ts:19-22 | ghost time counts down by dt and stops at zero; score unchanged |
| CharacterComponent.GhostExpires | src/components/character.ts:15-26 | after makeGhost(t), `isGhost` holds exactly while less than t has been ticked off, and not once t has |
| CharacterComponent.IsGhost | src/components/character.ts:24-26 | ghost time is left; GhostExpires proves that after makeGhost(t) it holds exactly while less than t has been ticked off |
| LivesComponent.New | src/components/lives.ts:4-5 | 3 of 3 lives, alive |
| LivesComponent.Subtract | src/components/lives.ts:7-11 | loses one life when any is left, otherwise no change; lives stay within [0, max] |
| LivesComponent.SubtractTimesCount | src/components/lives.ts:7-15 | n subtractions leave max(0, remaining − n) lives; `isAlive` holds iff n < remaining |
| LivesComponent.IsAlive | src/components/lives.ts:13-15 | a life remains; SubtractTimesCount proves that after n subtractions it holds iff n < remaining |
| Iterable.DefaultStep | src/utils/iterable.ts:1 | the default step is 1, or -1 when counting down |
| Iterable.Range | src/utils/iterable.ts:1-7 | element k is from + k·step; there are ceil((to − from) / step) of them for a positive step; empty when from ≥ to |
| Iterable.CeilStep | src/utils/iterable.ts:3 | one step fewer of distance means one element fewer |
| Iterable.RangeDefault | src/utils/iterable.ts:1-7 | with the default step the result is the unit-step range (a negative default only arises when the range is empty) |
| Iterable.RangeBounds | src/utils/iterable.ts:3-5 | every element lies in [from, to) and consecutive elements differ by the step |
| Iterable.ElementBelowEnd | src/utils/iterable.ts:3 | the loop guard holds for each of the first ceil(d / step) elements |
| Iterable.RangeIntegers | src/utils/iterable.ts:1-7 | for integer bounds the range is from, from + 1, …, to − 1 |
| FrameAnimationComponent.InitFrames | src/components/frame-animation.ts:47-55 | frame i keeps its rectangle and duration and ends at the running total of the first i + 1 durations |
| FrameAnimationComponent.InsertByEnd | src/components/frame-animation.ts:56 | one insertion step of the sort adds exactly the new frame |
| FrameAnimationComponent.InsertBounded | src/components/frame-animation.ts:56 | insertion keeps every end position below a common bound |
| FrameAnimationComponent.InsertSorted | src/components/frame-animation.ts:56 | insertion into a sorted list keeps it sorted |
| FrameAnimationComponent.SortByEnd | src/components/frame-animation.ts:56 | the frames come out sorted by end position and are a permutation of the input |
| FrameAnimationComponent.SortSortedIdentity | src/components/frame-animation.ts:56 | sorting an already sorted list leaves it unchanged |
| FrameAnimationComponent.InsertLast | src/components/frame-animation.ts:56 | a frame ending no earlier than a sorted list's last one is inserted at the end |
| FrameAnimationComponent.PrefixSumsGrow | src/components/frame-animation.ts:47-55 | with non-negative durations the running totals never decrease and are non-negative |
| FrameAnimationComponent.InitAnimation | src/components/frame-animation.ts:43-62 | the initialised animation keeps duration and mode, has total duration as its unit length, and holds the initialised frames sorted |
| FrameAnimationComponent.InitAnimationPrefixSums | src/components/frame-animation.ts:47-61 | with non-negative durations the sort keeps source order, and the last frame ends at the total |
| FrameAnimationComponent.LastFrameEndsAtTotal | src/components/frame-animation.ts:52-60 | the last initialised frame ends exactly at the unit length |
| FrameAnimationComponent.New | src/components/frame-animation.ts:36-66 | every animation is initialised; a missing or empty name means nothing plays; position defaults to 0; speed defaults to 1 and is never 0 |
| FrameAnimationComponent.Rem | src/components/frame-animation.ts:80-90 | JavaScript `%` on non-negative operands: x = k·m + r for k = ⌊x / m⌋ ≥ 0 and r in [0, m); values below m are left alone |
| FrameAnimationComponent.FloorBounds | src/components/frame-animation.ts:80-90 | ⌊x / m⌋ whole multiples of m fit in x and one more does not |
| FrameAnimationComponent.FloorUnique | src/components/frame-animation.ts:80-90 | a decomposition x = k·m + r with r in [0, m) fixes k = ⌊x / m⌋ |
| FrameAnimationComponent.RemUnique | src/components/frame-animation.ts:80-90 | such a decomposition also fixes x % m = r: the remainder is unique |
| FrameAnimationComponent.Frac | src/components/frame-animation.ts:90 | the fractional part lies in [0, 1) |
| FrameAnimationComponent.RemOneIsFrac | src/components/frame-animation.ts:83-90 | `x % 1` is the fractional part for x ≥ 0 |
| FrameAnimationComponent.PingpongStuck | src/components/frame-animation.ts:79-81 | from an even position ≥ 2 the wrap loop never terminates |
| FrameAnimationComponent.PingpongSettles | src/components/frame-animation.ts:79-81 | from any other position it stops within two rounds at a value ≤ 1 (positive if it started above 1) |
| FrameAnimationComponent.Triangle | src/components/frame-animation.ts:77-84 | the reference triangle wave: in [0, 1], equal to p on [0, 1] and to 2 − p on [1, 2] |
| FrameAnimationComponent.TrianglePeriodic | src/components/frame-animation.ts:77-84 | the triangle wave repeats every 2 units |
| FrameAnimationComponent.PingpongFoldValue | src/components/frame-animation.ts:79-81 | where the wrap loop terminates it ends at p itself for p ≤ 1 and on the triangle wave for every p ≥ 0 |
| FrameAnimationComponent.AdvancePingpong | src/components/frame-animation.ts:77-84 | the wrap loop applied to p = position + amount / 2: a non-negative p lands on the triangle wave of period 2, a negative one on the fractional part of −p; always in [0, 1] |
| FrameAnimationComponent.AdvanceRepeat | src/components/frame-animation.ts:85-91 | repeat wraps into [0, 1) |
| FrameAnimationComponent.AdvanceRepeatIsFrac | src/components/frame-animation.ts:85-91 | the repeat wrap equals the fractional part of position + amount, for negative sums too |
| FrameAnimationComponent.AdvanceOnce | src/components/frame-animation.ts:75-76 | once clamps to [0, 1], unchanged inside, 0 below, 1 above |
| FrameAnimationComponent.AdvancePosition | src/components/frame-animation.ts:68-93 | no-op when nothing plays; otherwise the speed-scaled amount is applied according to the mode: repeat gives the fractional part of the sum, once the sum clamped to [0, 1] (0 below, 1 above), pingpong the triangle wave of position + amount·speed / 2 (reflected for negative values); the position ends in [0, 1]; animations and speed kept |
| FrameAnimationComponent.SetPosition | src/components/frame-animation.ts:95-98 | the position is recomputed from 0 by the speed-scaled amount: 0 when nothing plays, otherwise within [0, 1], and exactly position × speed in once mode when that lies in [0, 1]; animation and speed kept |
| FrameAnimationComponent.SetSpeed | src/components/frame-animation.ts:100-102 | the speed never drops below 0.0001 and is kept when above it |
| FrameAnimationComponent.PlayAnimation | src/components/frame-animation.ts:104-107 | the named animation becomes current at the given position |
| FrameAnimationComponent.PlayOrContinueAnimation | src/components/frame-animation.ts:109-113 | restarts from 0 only when a different animation was current |
| FrameAnimationComponent.PlayOrContinueIdempotent | src/components/frame-animation.ts:109-113 | doing it twice equals doing it once |
| FrameAnimationComponent.StopAnimation | src/components/frame-animation.ts:115-118 | nothing plays and the position is 0 |
| FrameAnimationComponent.GetCurrentAnimation | src/components/frame-animation.ts:120-123 | null (or undefined, for an unknown name) exactly when nothing plays or the current name is not a known animation; otherwise the animation stored under the current name |
| FrameAnimationComponent.CurrentMode | src/components/frame-animation.ts:73 | the mode `advancePosition` reads is that of the animation `getCurrentAnimation` returns |
| FrameAnimationComponent.PlayThenGetCurrent | src/components/frame-animation.ts:104-123 | after `playAnimation(name)` the current animation is the named one exactly when the name is non-empty and known; otherwise nothing comes back |
| FrameAnimationComponent.RectNeedsCurrentAnimation | src/components/frame-animation.ts:120-130 | a rectangle is only found while there is a current animation |
| FrameAnimationComponent.FirstEndingAtOrAfter | src/components/frame-animation.ts:133-137 | the first frame whose end is at or after the point, or -1 when every frame ends before it |
| FrameAnimationComponent.Phase | src/components/frame-animation.ts:139-141 | pingpong folds [0, 1] onto a forward-then-backward phase, also in [0, 1] |
| FrameAnimationComponent.GetCurrentRect | src/components/frame-animation.ts:125-159 | null when nothing plays; otherwise the rectangle of the first frame ending at or after phase × total, null exactly when none does |
| FrameAnimationComponent.RectFromFrameIndex | src/components/frame-animation.ts:125-159 | the rectangle lookup succeeds exactly when the frame search finds an index |
| FrameAnimationComponent.FrameFound | src/components/frame-animation.ts:131-155 | a position in [0, 1] never points past the last frame |
| FrameAnimationComponent.FractionAtMost | src/components/frame-animation.ts:132 | a fraction in [0, 1] of a non-negative total is at most the total |
| FrameAnimationComponent.FoundBeforeLast | src/components/frame-animation.ts:133-137 | the search succeeds for any point up to the last frame's end |
| FrameAnimationComponent.CurrentRectFound | src/components/frame-animation.ts:157-158 | for an animation with frames of non-negative duration and a position in [0, 1], the "unreachable" null path is indeed unreachable |
| FrameAnimationComponent.FloorDiv | src/components/frame-animation.ts:172 | `Math.floor(i / n)` for any non-zero integer n: the floor of the exact real quotient |
| FrameAnimationComponent.EuclidIsFloor | src/components/frame-animation.ts:172 | for a positive divisor, integer division rounds the real quotient down |
| FrameAnimationComponent.SheetOf | src/components/frame-animation.ts:162-165 | the given sheet size, or by default the whole numbers of frames that fit the image on each axis: columns·width ≤ image width < (columns + 1)·width, and likewise for rows |
| FrameAnimationComponent.SheetFrame | src/components/frame-animation.ts:170-176 | frame i is a frame-sized cell of unit duration at row ⌊i / columns⌋ and column i − row·columns, which lies in [0, columns) |
| FrameAnimationComponent.GenerateSpritesheetFrames | src/components/frame-animation.ts:161-180 | columns × rows frames (none if that is ≤ 0), frame i being the sheet's cell i read row by row, each of unit duration |
| FrameAnimationComponent.DefaultSheetFramesInside | src/components/frame-animation.ts:162-174 | with the default sheet size every frame lies inside the image |
| FrameAnimationComponent.SheetCellInside | src/components/frame-animation.ts:162-174 | with whole numbers of cells that fit each extent, every index below columns·rows has its cell inside both extents |
| FrameAnimationComponent.SheetFrameInside | src/components/frame-animation.ts:168-174 | the frame built for index i lies inside extents that hold whole numbers of cells |
| FrameAnimationComponent.CellFits | src/components/frame-animation.ts:163-164 | when n cells fit an extent, cell k < n ends within it |
| FrameAnimationComponent.SheetFramesDistinct | src/components/frame-animation.ts:170-176 | different indices give different rectangles |
| FrameAnimationComponent.ScaleInjective | src/components/frame-animation.ts:171-172 | scaling by a positive frame size is injective on grid coordinates |

## Left out

- I/O and the host: `getTime`, `requestFrame` and `cancelFrame` become parameters (`now`, `frameId`). The callbacks the loop invokes become the returned list of calls. `Start` takes both clock readings the source makes (`now0` in `start`, `now1` in the step it runs).
- GameLoop.New: accepts any timestep, as the source does, but only a positive one gives a valid loop. Step, RunFrame and Start require a valid loop: with a timestep of zero or less the fixed-update loop (src/core/game-loop.ts:47) subtracts nothing or adds to the accumulator, so once entered it never ends.
- GameLoop.Start: the source does not cancel a frame that is already pending (src/core/game-loop.ts:56-61), so starting a running loop leaves two frame chains, and `stop` cancels only the newer one. The model returns the older frame id as `leftPending` and does not model the host running its chain.
- GameLoop.Step: on a step whose last reading is NaN (the first step after construction, without `start`) the source reads the clock twice; the model reads it once, so that step's raw delta is 0 rather than the small gap between the two readings.
- GameLoop.Step: NaN is modelled as `None` (`lastUpdateTime`, `nextFrameId`). Floating-point rounding is not modelled: all arithmetic is exact, so alpha and the fixed-update count are those of exact arithmetic.
- EventQueue: a listener's effect on the queue is a `Reaction` returning the subscribe/unsubscribe calls it makes. Three listener behaviours are left out. (1) A listener that calls `dispatch`: during `handleEvents` the source iterates the live event array, so the event would be delivered in the same pass, and during `dispatchImmediately` it would be queued (src/core/event-queue.ts:53-59). The model's HandleEvent, DispatchImmediately and DeliverAll promise that the pending events are untouched only because of this. (2) A listener that calls `dispatchImmediately` or `handleEvents` from inside a delivery, which nests a second delivery. (3) A listener with state of its own: a `Reaction` depends only on the listener and the event, so a closure whose behaviour changes from call to call cannot be expressed. Listener identity is an integer, where the source compares function references.
- EventQueue.Subscribe and Unsubscribe: the source keeps listener lists in a plain `{}` (src/core/event-queue.ts:17), so an event name that is an `Object.prototype` member, such as "constructor" or "toString", finds a function instead of a list and `subscribe` (:35) and `unsubscribe` (:46) throw. The model's map has no prototype, so those names behave like any other.
- EventQueue.HandleEvent: requires that the event's name has a listener list, because on an unknown name the source throws. DispatchImmediately requires the same. HandleEvents requires it of each queued event at that event's turn (`KnownAtTurns`), since an earlier event's listener may create the list.
- EntityStorage.SetComponent, GetComponent, HasComponent: an unregistered component type crashes the source with a TypeError, so it is a precondition.
- EntityStorage.GetEntitiesWith: requires that every type the inner loop consults, up to the first missing one, is registered. The source would crash otherwise.
- EntityStorage: the order of live ids follows JavaScript key order for numeric strings only as far as creation order goes. The source's ids start at Number.MIN_SAFE_INTEGER and are negative, and are therefore enumerated in insertion order. The model keeps creation order.
- EntityStorage.GetComponents: returns exactly one slot per requested type. The source returns its shared five-slot scratch array, whose trailing slots still hold components from earlier calls.
- EntityStorage.GetComponents: the source returns its shared `tmpComponents` scratch array by reference (src/core/entity-storage.ts:86), so a later call overwrites what an earlier caller holds. The model returns a fresh value. (`getEntitiesWith` already returns a copy, `tmpEntities.slice()` at :105.)
- EntityPool.AddUsedEntity: requires that the entity is new. The source does not check, and re-adding a known entity corrupts its index.
- EntityPool.FreeEntity: requires that the entity is used. The source's swap misbehaves on a free or unknown one.
- TrackingTable: entity keys are any comparable type; the source uses strings. `getEntries` exposes the live array by reference; the model returns a value.
- ComponentStorage.Remove: the source only deletes when the stored component is truthy. Components are class instances, hence always truthy, so this is delete-if-present.
- FrameAnimationComponent.AdvancePosition: in pingpong mode, requires that position + amount·speed/2 is not an even number ≥ 2. There the source's wrap loop never terminates (`PingpongStuck`).
- FrameAnimationComponent.AdvancePosition and GetCurrentRect: require that the current name, when set, is a known animation. The source throws otherwise. GetCurrentAnimation has no such requirement: for an unknown name it returns `None`, which stands for both the source's `null` (nothing plays) and its `undefined` (a name that is not an own or inherited key).
- FrameAnimationComponent.GetCurrentAnimation: the source's animation table is a plain `{}` (src/components/frame-animation.ts:42), so a name that is an `Object.prototype` member, such as "toString", makes `getCurrentAnimation` (:122) return the inherited function. The model's map has no prototype and returns `None` for such a name.
- FrameAnimationComponent.New: `hasProperty` filtering of inherited keys is implicit, since a Dafny map has no prototype chain. NaN options are not modelled.
- FrameAnimationComponent.SortByEnd: JavaScript's comparator sort is modelled as a stable insertion sort. Only sortedness, permutation, and identity on sorted input are proved; stability for equal end positions is not stated.
- FrameAnimationComponent.GenerateSpritesheetFrames: an explicit sheet size is integral; non-integral sheet sizes passed from JavaScript are not modelled.
- FrameAnimationComponent.SheetOf and GenerateSpritesheetFrames: require a non-zero frame size when no sheet size is given. In the source a zero frame size makes the default column or row count NaN (no frames) or Infinity (a frame loop that never ends), src/components/frame-animation.ts:163-167.
- Transform `getInterpolatedX` and `getInterpolatedY`: `lerp` lives in `utils/math`, which is not part of this model.
- Geometry.GetOverlap: returns a fresh vector. The source writes into the caller-supplied `output` vector (src/types/aabb.ts:57-61) and returns it, so callers that pass one see it overwritten; that aliasing is not modelled.
- Iterable.Range: requires a positive step or `from >= to`. With a step of zero or less and `from < to` the source's loop (src/utils/iterable.ts:3) never terminates.
- Aabb width and height setters and the `intersects` instance method: the setters mutate through a shared Vec2, and `intersects` is the static `intersect`, which `Intersect` models.
- `randomPick` in src/utils/iterable.ts: it depends on `Math.random`.
- Systems, screens, rendering, input, asset loading and the build tooling: outside the engine core.

=== FILE: aspect.dfy ===
/**
 * Aspects of src/core/aspect.ts: a query key made of an ordered list of
 * component type names and a hash that joins those names with '&'. The
 * names are NOT sorted, so the hash depends on their order.
 */
module Aspect {

  type TypeName = string

  const Separator: char := '&'

  datatype Aspect = Aspect(hash: string, includedComponents: seq<TypeName>)

  /** The names joined with the separator, as Array.prototype.join does. */
  function Join(names: seq<TypeName>): string
  {
    if |names| == 0 then ""
    else if |names| == 1 then names[0]
    else names[0] + [Separator] + Join(names[1..])
  }

  /**
   * The hash: every name occurs in it, and for a non-empty list of
   * '&'-free names splitting it at '&' gives the names back.
   */
  function CalculateHash(names: seq<TypeName>): (h: string)
    ensures forall i :: 0 <= i < |names| ==> OccursIn(names[i], h)
    ensures |names| >= 1 && (forall i :: 0 <= i < |names| ==> NoSeparator(names[i])) ==> Split(h) == names
  {
    JoinContainsEach(names);
    JoinSplitsBack(names);
    Join(names)
  }

  lemma JoinSplitsBack(names: seq<TypeName>)
    ensures |names| >= 1 && (forall i :: 0 <= i < |names| ==> NoSeparator(names[i])) ==> Split(Join(names)) == names
  {
    if |names| >= 1 && (forall i :: 0 <= i < |names| ==> NoSeparator(names[i])) {
      SplitJoin(names);
    }
  }

  /** `sub` occurs in `s` as a contiguous slice. */
  ghost predicate OccursIn(sub: string, s: string)
  {
    exists k :: 0 <= k <= |s| && sub <= s[k..]
  }

  /** Builds the aspect for the given types, in argument order. */
  function All(names: seq<TypeName>): (a: Aspect)
    ensures a.includedComponents == names
    ensures |names| == 1 ==> a.hash == names[0]
    ensures forall i :: 0 <= i < |names| ==> |names[i]| <= |a.hash|
  {
    JoinContainsEach(names);
    Aspect(CalculateHash(names), names)
  }

  /** Every name occurs in the joined string, which is therefore at least as long. */
  lemma {:induction false} JoinContainsEach(names: seq<TypeName>)
    ensures forall i :: 0 <= i < |names| ==> OccursIn(names[i], Join(names))
    ensures forall i :: 0 <= i < |names| ==> |names[i]| <= |Join(names)|
  {
    if |names| == 1 {
      assert names[0] <= Join(names)[0..];
    } else if |names| > 1 {
      JoinContainsEach(names[1..]);
      var j := Join(names[1..]);
      var s := Join(names);
      var off := |names[0]| + 1;
      assert s == names[0] + [Separator] + j;
      assert names[0] <= s[0..];
      forall i | 1 <= i < |names|
        ensures OccursIn(names[i], s) && |names[i]| <= |s|
      {
        assert names[i] == names[1..][i - 1];
        var k :| 0 <= k <= |j| && names[i] <= j[k..];
        assert s[off + k..] == j[k..];
      }
    }
  }

  ghost predicate NoSeparator(name: TypeName)
  {
    forall k :: 0 <= k < |name| ==> name[k] != Separator
  }

  /** Position of the first separator in `s`, or |s| when there is none. */
  function FirstSeparator(s: string): (k: nat)
    ensures k <= |s|
    ensures forall j :: 0 <= j < k ==> s[j] != Separator
    ensures k < |s| ==> s[k] == Separator
  {
    if |s| == 0 || s[0] == Separator then 0 else 1 + FirstSeparator(s[1..])
  }

  /** Splits a hash back into names at every separator (String.prototype.split). */
  function Split(s: string): (names: seq<TypeName>)
    ensures |names| >= 1
    decreases |s|
  {
    var k := FirstSeparator(s);
    if k == |s| then [s] else [s[..k]] + Split(s[k + 1..])
  }

  /** Splitting a hash recovers the names, for any non-empty list of separator-free names. */
  lemma {:induction false} SplitJoin(names: seq<TypeName>)
    requires |names| >= 1
    requires forall i :: 0 <= i < |names| ==> NoSeparator(names[i])
    ensures Split(Join(names)) == names
  {
    var n0 := names[0];
    if |names| == 1 {
      assert FirstSeparator(n0) == |n0|;
    } else {
      var rest := Join(names[1..]);
      var s := n0 + [Separator] + rest;
      assert FirstSeparator(s) == |n0| by {
        FirstSeparatorAfterPrefix(n0, rest);
      }
      assert s[..|n0|] == n0;
      assert s[|n0| + 1..] == rest;
      SplitJoin(names[1..]);
      assert names == [n0] + names[1..];
    }
  }

  lemma {:induction false} FirstSeparatorAfterPrefix(n: string, rest: string)
    requires NoSeparator(n)
    ensures FirstSeparator(n + [Separator] + rest) == |n|
  {
    if |n| > 0 {
      assert (n + [Separator] + rest)[1..] == n[1..] + [Separator] + rest;
      FirstSeparatorAfterPrefix(n[1..], rest);
    }
  }

  /** Different non-empty lists of separator-free names give different hashes. */
  lemma HashInjective(a: seq<TypeName>, b: seq<TypeName>)
    requires |a| >= 1 && |b| >= 1
    requires forall i :: 0 <= i < |a| ==> NoSeparator(a[i])
    requires forall i :: 0 <= i < |b| ==> NoSeparator(b[i])
    ensures All(a).hash == All(b).hash <==> a == b
  {
    SplitJoin(a);
    SplitJoin(b);
  }

  /** Because names are not sorted, exchanging two distinct names changes the hash. */
  lemma SwapChangesHash(names: seq<TypeName>, i: nat, j: nat)
    requires i < |names| && j < |names| && names[i] != names[j]
    requires forall k :: 0 <= k < |names| ==> NoSeparator(names[k])
    ensures All(names[i := names[j]][j := names[i]]).hash != All(names).hash
  {
    var swapped := names[i := names[j]][j := names[i]];
    assert swapped[i] != names[i];
    HashInjective(swapped, names);
  }
}

=== FILE: component_storage.dfy ===
/**
 * The per-type component store of src/core/component-storage.ts: a map from
 * entity to the component attached to it. Component instances are objects,
 * hence always truthy, so the guard in `remove` only tests presence.
 */
module ComponentStorage {
  import opened Wrappers

  datatype Storage<E(!new), C> = Storage(components: map<E, C>)

  function Empty<E(!new), C>(): (s: Storage<E, C>)
    ensures forall e :: !Has(s, e)
  {
    Storage(map[])
  }

  /** The component of `e`, or None (the source's undefined) when it has none. */
  function Get<E(!new), C>(s: Storage<E, C>, e: E): (r: Option<C>)
    ensures r.Some? <==> Has(s, e)
    ensures r.Some? ==> r.value == s.components[e]
  {
    if e in s.components then Some(s.components[e]) else None
  }

  predicate Has<E(!new), C>(s: Storage<E, C>, e: E)
  {
    e in s.components
  }

  /** Attaches `c` to `e`, overwriting any previous component. */
  function Set<E(!new), C>(s: Storage<E, C>, e: E, c: C): (r: Storage<E, C>)
    ensures Get(r, e) == Some(c)
    ensures forall x :: x != e ==> Get(r, x) == Get(s, x)
  {
    Storage(s.components[e := c])
  }

  /** Detaches the component of `e`; a no-op when there is none. */
  function Remove<E(!new), C>(s: Storage<E, C>, e: E): (r: Storage<E, C>)
    ensures !Has(r, e)
    ensures !Has(s, e) ==> r == s
    ensures forall x :: x != e ==> Get(r, x) == Get(s, x)
  {
    if e in s.components then Storage(s.components - {e}) else s
  }

  /** Setting twice keeps only the second component. */
  lemma SetOverwrites<E(!new), C>(s: Storage<E, C>, e: E, c1: C, c2: C)
    ensures Set(Set(s, e, c1), e, c2) == Set(s, e, c2)
  {
  }

  /** Removing after setting forgets the entity entirely, whatever it held before. */
  lemma RemoveAfterSet<E(!new), C>(s: Storage<E, C>, e: E, c: C)
    ensures Remove(Set(s, e, c), e) == Remove(s, e)
  {
  }
}

=== FILE: components.dfy ===
/**
 * The Transform component of src/components/transform.ts: the current
 * position and the position before the last move, as values.
 */
module TransformComponent {
  import opened Geometry

  datatype Transform = Transform(position: Vec2, lastPosition: Vec2)

  /** A fresh transform has not moved yet. */
  function New(position: Vec2): (t: Transform)
    ensures t.position == position && t.lastPosition == t.position
  {
    Transform(position, Vec2(position.x, position.y))
  }

  /** Moves to (x, y), remembering where it came from. */
  function MoveTo(t: Transform, x: real, y: real): (r: Transform)
    ensures r.lastPosition == t.position
    ensures r.position == Vec2(x, y)
  {
    Transform(Vec2(x, y), Vec2(t.position.x, t.position.y))
  }

  function MoveBy(t: Transform, dx: real, dy: real): (r: Transform)
    ensures r.lastPosition == t.position
    ensures r.position.x - t.position.x == dx && r.position.y - t.position.y == dy
  {
    MoveTo(t, t.position.x + dx, t.position.y + dy)
  }

  /** Jumps to (x, y) with no movement to interpolate. */
  function TeleportTo(t: Transform, x: real, y: real): (r: Transform)
    ensures r.position == Vec2(x, y) && r.lastPosition == r.position
  {
    Transform(Vec2(x, y), Vec2(x, y))
  }

  function TeleportBy(t: Transform, dx: real, dy: real): (r: Transform)
    ensures r.lastPosition == r.position
    ensures r.position.x - t.position.x == dx && r.position.y - t.position.y == dy
  {
    TeleportTo(t, t.position.x + dx, t.position.y + dy)
  }

  /** moveBy is moveTo of the shifted position; a move never forgets the start point. */
  lemma MoveByIsMoveTo(t: Transform, dx: real, dy: real)
    ensures MoveBy(t, dx, dy) == MoveTo(t, t.position.x + dx, t.position.y + dy)
    ensures MoveTo(TeleportTo(t, t.position.x, t.position.y), t.position.x + dx, t.position.y + dy).lastPosition == t.position
  {
  }
}

/** The Character component of src/components/character.ts. */
module CharacterComponent {

  datatype Character = Character(score: real, ghostTime: real)

  function New(): (c: Character)
    ensures c.score == 0.0 && c.ghostTime == 0.0 && !IsGhost(c)
  {
    Character(0.0, 0.0)
  }

  function AddScore(c: Character, amount: real): (r: Character)
    ensures r.score - c.score == amount && r.ghostTime == c.ghostTime
  {
    c.(score := c.score + amount)
  }

  function MakeGhost(c: Character, time: real): (r: Character)
    ensures r.ghostTime == time && r.score == c.score
    ensures time > 0.0 ==> IsGhost(r)
  {
    c.(ghostTime := time)
  }

  /** Counts the ghost timer down by `dt`, stopping at zero. */
  function TickGhost(c: Character, dt: real): (r: Character)
    ensures r.ghostTime >= 0.0
    ensures c.ghostTime - dt >= 0.0 ==> r.ghostTime == c.ghostTime - dt
    ensures c.ghostTime - dt < 0.0 ==> r.ghostTime == 0.0
    ensures dt >= c.ghostTime ==> !IsGhost(r)
    ensures r.score == c.score
  {
    var t := c.ghostTime - dt;
    c.(ghostTime := if t >= 0.0 then t else 0.0)
  }

  predicate IsGhost(c: Character)
  {
    c.ghostTime > 0.0
  }

  /** Ghost time runs out after exactly that much time has been ticked off. */
  lemma GhostExpires(c: Character, time: real, dt1: real, dt2: real)
    requires time > 0.0 && dt1 >= 0.0 && dt2 >= 0.0
    ensures IsGhost(TickGhost(MakeGhost(c, time), dt1)) <==> dt1 < time
    ensures dt1 + dt2 >= time ==> !IsGhost(TickGhost(TickGhost(MakeGhost(c, time), dt1), dt2))
  {
  }
}

/** The Lives component of src/components/lives.ts. */
module LivesComponent {

  datatype Lives = Lives(maxLives: int, remainingLives: int)

  ghost predicate Valid(l: Lives)
  {
    0 <= l.remainingLives <= l.maxLives
  }

  /** A new holder starts with 3 of 3 lives. */
  function New(): (l: Lives)
    ensures Valid(l) && l.maxLives == 3 && l.remainingLives == 3 && IsAlive(l)
  {
    Lives(3, 3)
  }

  /** Loses one life if any is left. */
  function Subtract(l: Lives): (r: Lives)
    ensures r.maxLives == l.maxLives
    ensures l.remainingLives > 0 ==> r.remainingLives == l.remainingLives - 1
    ensures l.remainingLives <= 0 ==> r == l
    ensures Valid(l) ==> Valid(r)
  {
    if l.remainingLives > 0 then l.(remainingLives := l.remainingLives - 1) else l
  }

  predicate IsAlive(l: Lives)
  {
    l.remainingLives > 0
  }

  function SubtractTimes(l: Lives, n: nat): Lives
    decreases n
  {
    if n == 0 then l else SubtractTimes(Subtract(l), n - 1)
  }

  /** From a valid state, losing n lives leaves max(0, remaining - n); alive iff n < remaining. */
  lemma {:induction false} SubtractTimesCount(l: Lives, n: nat)
    requires Valid(l)
    ensures var r := SubtractTimes(l, n);
      && Valid(r)
      && r.maxLives == l.maxLives
      && r.remainingLives == (if n <= l.remainingLives then l.remainingLives - n else 0)
      && (IsAlive(r) <==> n < l.remainingLives)
    decreases n
  {
    if n > 0 {
      SubtractTimesCount(Subtract(l), n - 1);
    }
  }
}

=== FILE: entity_pool.dfy ===
/**
 * The entity pool of src/core/entity-pool.ts: a flat list of entities whose
 * prefix below `firstUnused` is in use and whose suffix is free for reuse,
 * with an entity -> position index kept as the list's inverse.
 */
module EntityPool {
  import opened Wrappers

  datatype Pool<E> = Pool(entities: seq<E>, indices: map<E, int>, firstUnused: int)

  /** The index map and the list are mutual inverses. */
  ghost predicate Inverse<E>(entities: seq<E>, indices: map<E, int>)
  {
    && (forall e :: e in indices ==> 0 <= indices[e] < |entities| && entities[indices[e]] == e)
    && (forall i :: 0 <= i < |entities| ==> entities[i] in indices && indices[entities[i]] == i)
  }

  ghost predicate Valid<E>(p: Pool<E>)
  {
    && Inverse(p.entities, p.indices)
    && 0 <= p.firstUnused <= |p.entities|
  }

  /** An empty pool. */
  function Empty<E>(): (p: Pool<E>)
    ensures Valid(p) && Known(p) == {}
  {
    Pool([], map[], 0)
  }

  /** The pool knows `e` (it was added at some point): in a valid pool, `e` occupies a slot. */
  function HasEntity<E>(p: Pool<E>, e: E): (b: bool)
    ensures Valid(p) ==> (b <==> exists i :: 0 <= i < |p.entities| && p.entities[i] == e)
  {
    e in p.indices
  }

  /** Position below the boundary; an unknown entity is neither used nor free. */
  function IsUsed<E>(p: Pool<E>, e: E): (b: bool)
    ensures b ==> HasEntity(p, e)
    ensures Valid(p) && b ==> exists i :: 0 <= i < p.firstUnused && p.entities[i] == e
  {
    e in p.indices && p.indices[e] < p.firstUnused
  }

  /** Position at or above the boundary; never both used and free. */
  function IsFree<E>(p: Pool<E>, e: E): (b: bool)
    ensures b ==> HasEntity(p, e) && !IsUsed(p, e)
    ensures Valid(p) && b ==> exists i :: p.firstUnused <= i < |p.entities| && p.entities[i] == e
  {
    e in p.indices && p.indices[e] >= p.firstUnused
  }

  ghost function Known<E>(p: Pool<E>): set<E>
  {
    p.indices.Keys
  }

  ghost function UsedSet<E>(p: Pool<E>): set<E>
  {
    set e | e in p.indices && p.indices[e] < p.firstUnused
  }

  ghost function FreeSet<E>(p: Pool<E>): set<E>
  {
    set e | e in p.indices && p.indices[e] >= p.firstUnused
  }

  /** Every known entity is in exactly one of the two partitions. */
  lemma Partition<E>(p: Pool<E>, e: E)
    requires Valid(p)
    ensures HasEntity(p, e) <==> (IsUsed(p, e) || IsFree(p, e))
    ensures !(IsUsed(p, e) && IsFree(p, e))
    ensures UsedSet(p) * FreeSet(p) == {} && UsedSet(p) + FreeSet(p) == Known(p)
  {
  }

  lemma NoDuplicates<E>(p: Pool<E>, i: int, j: int)
    requires Inverse(p.entities, p.indices)
    requires 0 <= i < |p.entities| && 0 <= j < |p.entities|
    requires p.entities[i] == p.entities[j]
    ensures i == j
  {
    assert p.indices[p.entities[i]] == i;
  }

  /** Exchanges two slots and re-points both entities' indices. */
  function Swap<E>(p: Pool<E>, a: int, b: int): (r: Pool<E>)
    requires Inverse(p.entities, p.indices)
    requires 0 <= a < |p.entities| && 0 <= b < |p.entities|
    ensures Inverse(r.entities, r.indices)
    ensures r.firstUnused == p.firstUnused
    ensures |r.entities| == |p.entities| && r.indices.Keys == p.indices.Keys
    ensures r.entities[a] == p.entities[b] && r.entities[b] == p.entities[a]
    ensures forall k :: 0 <= k < |p.entities| && k != a && k != b ==> r.entities[k] == p.entities[k]
  {
    var ea := p.entities[a];
    var eb := p.entities[b];
    forall k | 0 <= k < |p.entities| && k != a && k != b
      ensures p.entities[k] != ea && p.entities[k] != eb
    {
      if p.entities[k] == ea { NoDuplicates(p, k, a); }
      if p.entities[k] == eb { NoDuplicates(p, k, b); }
    }
    Pool(p.entities[a := eb][b := ea], p.indices[ea := b][eb := a], p.firstUnused)
  }

  /** After swapping slots a and b, an entity's slot is its old slot with a and b exchanged. */
  lemma SwapIndex<E>(p: Pool<E>, a: int, b: int, x: E)
    requires Inverse(p.entities, p.indices)
    requires 0 <= a < |p.entities| && 0 <= b < |p.entities|
    requires x in p.indices
    ensures var r := Swap(p, a, b);
      r.indices[x] == (if p.indices[x] == a then b else if p.indices[x] == b then a else p.indices[x])
  {
    var r := Swap(p, a, b);
    var i := p.indices[x];
    if i == a {
      assert r.entities[b] == x;
    } else if i == b {
      assert r.entities[a] == x;
    } else {
      assert r.entities[i] == x;
    }
  }

  /** Appends a new entity and moves it to the boundary, growing the used prefix. */
  function AddNewUsed<E>(p: Pool<E>, e: E): (r: Pool<E>)
    requires Valid(p) && !HasEntity(p, e)
    ensures Valid(r)
    ensures Known(r) == Known(p) + {e}
    ensures IsUsed(r, e)
    ensures forall x :: x in p.indices ==> (IsUsed(r, x) <==> IsUsed(p, x))
  {
    var n := |p.entities|;
    var pushed := Pool(p.entities + [e], p.indices[e := n], p.firstUnused);
    assert Inverse(pushed.entities, pushed.indices) by {
      forall i | 0 <= i < |pushed.entities|
        ensures pushed.entities[i] in pushed.indices && pushed.indices[pushed.entities[i]] == i
      {
        if i < n { assert pushed.entities[i] == p.entities[i]; }
      }
    }
    var s := Swap(pushed, n, p.firstUnused);
    forall x | x in pushed.indices
      ensures s.indices[x] == (if pushed.indices[x] == n then p.firstUnused
                              else if pushed.indices[x] == p.firstUnused then n
                              else pushed.indices[x])
    {
      SwapIndex(pushed, n, p.firstUnused, x);
    }
    Pool(s.entities, s.indices, s.firstUnused + 1)
  }

  /** Moves a free entity to the boundary and grows the used prefix over it. */
  function MakeUsed<E>(p: Pool<E>, e: E): (r: Pool<E>)
    requires Valid(p) && IsFree(p, e)
    ensures Valid(r)
    ensures Known(r) == Known(p)
    ensures IsUsed(r, e)
    ensures forall x :: x in p.indices && x != e ==> (IsUsed(r, x) <==> IsUsed(p, x))
  {
    var s := Swap(p, p.indices[e], p.firstUnused);
    forall x | x in p.indices
      ensures s.indices[x] == (if p.indices[x] == p.indices[e] then p.firstUnused
                              else if p.indices[x] == p.firstUnused then p.indices[e]
                              else p.indices[x])
    {
      SwapIndex(p, p.indices[e], p.firstUnused, x);
    }
    Pool(s.entities, s.indices, s.firstUnused + 1)
  }

  /** Moves a used entity to the last used slot and shrinks the used prefix past it. */
  function MakeUnused<E>(p: Pool<E>, e: E): (r: Pool<E>)
    requires Valid(p) && IsUsed(p, e)
    ensures Valid(r)
    ensures Known(r) == Known(p)
    ensures IsFree(r, e)
    ensures forall x :: x in p.indices && x != e ==> (IsUsed(r, x) <==> IsUsed(p, x))
  {
    var s := Swap(p, p.indices[e], p.firstUnused - 1);
    forall x | x in p.indices
      ensures s.indices[x] == (if p.indices[x] == p.indices[e] then p.firstUnused - 1
                              else if p.indices[x] == p.firstUnused - 1 then p.indices[e]
                              else p.indices[x])
    {
      SwapIndex(p, p.indices[e], p.firstUnused - 1, x);
    }
    Pool(s.entities, s.indices, s.firstUnused - 1)
  }

  /** Registers a new entity as used; the free partition is untouched. */
  function AddUsedEntity<E>(p: Pool<E>, e: E): (r: Pool<E>)
    requires Valid(p) && !HasEntity(p, e)
    ensures Valid(r)
    ensures HasEntity(r, e) && IsUsed(r, e)
    ensures Known(r) == Known(p) + {e}
    ensures UsedSet(r) == UsedSet(p) + {e}
    ensures FreeSet(r) == FreeSet(p)
  {
    AddNewUsed(p, e)
  }

  /**
   * Revives the first free entity, if any: it moves into the used partition
   * and is returned. Without a free entity the pool is unchanged.
   */
  function GetEntity<E>(p: Pool<E>): (res: (Pool<E>, Option<E>))
    requires Valid(p)
    ensures Valid(res.0)
    ensures Known(res.0) == Known(p)
    ensures res.1.None? <==> FreeSet(p) == {}
    ensures res.1.None? ==> res.0 == p
    ensures res.1.Some? ==>
      && IsFree(p, res.1.value) && IsUsed(res.0, res.1.value)
      && res.1.value == p.entities[p.firstUnused]
      && UsedSet(res.0) == UsedSet(p) + {res.1.value}
      && FreeSet(res.0) == FreeSet(p) - {res.1.value}
  {
    if p.firstUnused < |p.entities| then
      var result := p.entities[p.firstUnused];
      assert result in FreeSet(p);
      (MakeUsed(p, result), Some(result))
    else
      assert forall x :: x in p.indices ==> p.indices[x] < p.firstUnused;
      (p, None)
  }

  /** Returns a used entity to the free partition; nothing else changes partition. */
  function FreeEntity<E>(p: Pool<E>, e: E): (r: Pool<E>)
    requires Valid(p) && IsUsed(p, e)
    ensures Valid(r)
    ensures Known(r) == Known(p)
    ensures IsFree(r, e)
    ensures UsedSet(r) == UsedSet(p) - {e}
    ensures FreeSet(r) == FreeSet(p) + {e}
  {
    MakeUnused(p, e)
  }

  /** Frees `e` when it is used; a no-op on free or unknown entities. */
  function TryFreeEntity<E>(p: Pool<E>, e: E): (r: Pool<E>)
    requires Valid(p)
    ensures Valid(r)
    ensures Known(r) == Known(p)
    ensures !IsUsed(r, e)
    ensures !IsUsed(p, e) ==> r == p
    ensures IsUsed(p, e) ==> UsedSet(r) == UsedSet(p) - {e} && FreeSet(r) == FreeSet(p) + {e}
  {
    if IsUsed(p, e) then FreeEntity(p, e) else p
  }

  lemma TryFreeIdempotent<E>(p: Pool<E>, e: E)
    requires Valid(p)
    ensures TryFreeEntity(TryFreeEntity(p, e), e) == TryFreeEntity(p, e)
  {
  }
}

=== FILE: entity_storage.dfy ===
/**
 * The entity storage facade of src/core/entity-storage.ts: one component
 * store per registered type name, a set of live entities and a counter that
 * hands out entity ids. Ids are the source's numeric strings, as integers.
 */
module EntityStorage {
  import opened Wrappers
  import CS = ComponentStorage

  type Entity = int
  type TypeName = string

  /** A component value tagged with the name of its type. */
  datatype Component<P> = Component(typeName: TypeName, payload: P)

  type Store<P> = CS.Storage<Entity, Component<P>>

  /**
   * `live` lists the live entities in creation order, which is also the
   * order in which the source's id-keyed object enumerates them.
   */
  datatype Registry<P> = Registry(lastEntityId: int, storages: map<TypeName, Store<P>>, live: seq<Entity>)

  /** Number.MIN_SAFE_INTEGER, the counter's starting value. */
  const MinSafeInteger: int := -9007199254740991

  ghost predicate Increasing(s: seq<Entity>)
  {
    forall i, j :: 0 <= i < j < |s| ==> s[i] < s[j]
  }

  ghost predicate Valid<P>(w: Registry<P>)
  {
    && Increasing(w.live)
    && (forall i :: 0 <= i < |w.live| ==> w.live[i] <= w.lastEntityId)
  }

  predicate IsLive<P>(w: Registry<P>, e: Entity)
  {
    e in w.live
  }

  function Init<P>(): (w: Registry<P>)
    ensures Valid(w) && |w.live| == 0 && w.storages == map[]
  {
    Registry(MinSafeInteger, map[], [])
  }

  /** Installs an empty store under the name, discarding any existing one. */
  function RegisterComponentType<P>(w: Registry<P>, name: TypeName): (r: Registry<P>)
    requires Valid(w)
    ensures Valid(r)
    ensures r.storages.Keys == w.storages.Keys + {name}
    ensures forall e :: !CS.Has(r.storages[name], e)
    ensures forall n :: n in w.storages && n != name ==> r.storages[n] == w.storages[n]
    ensures r.live == w.live && r.lastEntityId == w.lastEntityId
  {
    Registry(w.lastEntityId, w.storages[name := CS.Empty()], w.live)
  }

  /** Hands out the next id, different from every id handed out before, and marks it live. */
  function CreateEntity<P>(w: Registry<P>): (res: (Registry<P>, Entity))
    requires Valid(w)
    ensures Valid(res.0)
    ensures forall i :: 0 <= i < |w.live| ==> w.live[i] < res.1
    ensures res.1 > w.lastEntityId && res.0.lastEntityId == res.1
    ensures IsLive(res.0, res.1)
    ensures forall x :: IsLive(res.0, x) <==> IsLive(w, x) || x == res.1
    ensures res.0.storages == w.storages
  {
    var id := w.lastEntityId + 1;
    (Registry(id, w.storages, w.live + [id]), id)
  }

  /** `s` without `e`, order otherwise kept. */
  function Without(s: seq<Entity>, e: Entity): (r: seq<Entity>)
    ensures forall x :: x in r <==> x in s && x != e
    ensures |r| <= |s|
    ensures Increasing(s) ==> Increasing(r)
  {
    if |s| == 0 then []
    else if s[0] == e then Without(s[1..], e)
    else
      var tail := Without(s[1..], e);
      assert Increasing(s) ==> Increasing([s[0]] + tail) by {
        if Increasing(s) {
          assert Increasing(s[1..]);
          forall x | x in tail
            ensures s[0] < x
          {
            var k :| 0 <= k < |s[1..]| && s[1..][k] == x;
            assert s[k + 1] == x;
          }
          var u := [s[0]] + tail;
          forall i, j | 0 <= i < j < |u|
            ensures u[i] < u[j]
          {
            assert u[j] == tail[j - 1];
            if i > 0 { assert u[i] == tail[i - 1]; } else { assert tail[j - 1] in tail; }
          }
        }
      }
      [s[0]] + tail
  }

  /** Removes `e` at once from every registered store and from the live set. */
  function RemoveEntity<P>(w: Registry<P>, e: Entity): (r: Registry<P>)
    requires Valid(w)
    ensures Valid(r)
    ensures !IsLive(r, e)
    ensures forall x :: x != e ==> (IsLive(r, x) <==> IsLive(w, x))
    ensures r.storages.Keys == w.storages.Keys
    ensures forall n :: n in r.storages ==> !CS.Has(r.storages[n], e)
    ensures forall n, x :: n in r.storages && x != e ==> CS.Get(r.storages[n], x) == CS.Get(w.storages[n], x)
    ensures r.lastEntityId == w.lastEntityId
  {
    var stores := map n | n in w.storages :: CS.Remove(w.storages[n], e);
    var live := Without(w.live, e);
    assert forall i :: 0 <= i < |live| ==> live[i] <= w.lastEntityId by {
      forall i | 0 <= i < |live|
        ensures live[i] <= w.lastEntityId
      {
        assert live[i] in w.live;
        var j :| 0 <= j < |w.live| && w.live[j] == live[i];
      }
    }
    Registry(w.lastEntityId, stores, live)
  }

  /**
   * Stores `c` under its own type's name. The entity need not be live; an
   * unregistered type is a crash in the source, hence a precondition.
   */
  function SetComponent<P>(w: Registry<P>, e: Entity, c: Component<P>): (r: Registry<P>)
    requires Valid(w)
    requires c.typeName in w.storages
    ensures Valid(r)
    ensures r.storages.Keys == w.storages.Keys
    ensures GetComponent(r, e, c.typeName) == Some(c)
    ensures forall x :: x != e ==> GetComponent(r, x, c.typeName) == GetComponent(w, x, c.typeName)
    ensures forall n :: n in w.storages && n != c.typeName ==> r.storages[n] == w.storages[n]
    ensures r.live == w.live && r.lastEntityId == w.lastEntityId
  {
    Registry(w.lastEntityId, w.storages[c.typeName := CS.Set(w.storages[c.typeName], e, c)], w.live)
  }

  /** The entity's component of the named type: present exactly when the type's store has the entity. */
  function GetComponent<P>(w: Registry<P>, e: Entity, name: TypeName): (r: Option<Component<P>>)
    requires name in w.storages
    ensures r.Some? <==> CS.Has(w.storages[name], e)
    ensures r.Some? ==> r.value == w.storages[name].components[e]
  {
    CS.Get(w.storages[name], e)
  }

  /** `hasComponent`: the type's store holds a component for the entity. */
  function HasComponent<P>(w: Registry<P>, e: Entity, name: TypeName): (b: bool)
    requires name in w.storages
    ensures b <==> GetComponent(w, e, name).Some?
  {
    CS.Has(w.storages[name], e)
  }

  /** Component lookup is "present exactly when the store has the entity". */
  lemma GetHasAgree<P>(w: Registry<P>, e: Entity, name: TypeName)
    requires name in w.storages
    ensures GetComponent(w, e, name).Some? <==> HasComponent(w, e, name)
  {
  }

  /** The components of `e` for each listed type, position by position. */
  method GetComponents<P>(w: Registry<P>, e: Entity, names: seq<TypeName>) returns (r: seq<Option<Component<P>>>)
    requires forall i :: 0 <= i < |names| ==> names[i] in w.storages
    ensures |r| == |names|
    ensures forall i :: 0 <= i < |names| ==> r[i] == GetComponent(w, e, names[i])
  {
    r := [];
    var i := 0;
    while i < |names|
      invariant 0 <= i <= |names|
      invariant |r| == i
      invariant forall k :: 0 <= k < i ==> r[k] == GetComponent(w, e, names[k])
    {
      r := r + [CS.Get(w.storages[names[i]], e)];
      i := i + 1;
    }
  }

  /** `e` holds a component in every listed store (all of them registered). */
  ghost predicate HasAll<P>(w: Registry<P>, e: Entity, names: seq<TypeName>)
  {
    forall i :: 0 <= i < |names| ==> names[i] in w.storages && CS.Has(w.storages[names[i]], e)
  }

  /**
   * The source's inner loop can be run for `e` without touching an
   * unregistered store: every type it consults, up to and including the
   * first one `e` lacks, is registered.
   */
  ghost predicate Checkable<P>(w: Registry<P>, e: Entity, names: seq<TypeName>)
  {
    |names| == 0 ||
    (names[0] in w.storages && (!CS.Has(w.storages[names[0]], e) || Checkable(w, e, names[1..])))
  }

  /** The inner loop: stop at the first type `e` lacks. */
  function Matches<P>(w: Registry<P>, e: Entity, names: seq<TypeName>): (b: bool)
    requires Checkable(w, e, names)
    ensures b <==> HasAll(w, e, names)
  {
    if |names| == 0 then true
    else if !CS.Has(w.storages[names[0]], e) then false
    else Matches(w, e, names[1..])
  }

  /**
   * The live entities holding a component of every listed type, each once,
   * in creation order.
   */
  method GetEntitiesWith<P>(w: Registry<P>, names: seq<TypeName>) returns (r: seq<Entity>)
    requires Valid(w)
    requires forall i :: 0 <= i < |w.live| ==> Checkable(w, w.live[i], names)
    ensures Increasing(r)
    ensures forall x :: x in r <==> IsLive(w, x) && HasAll(w, x, names)
  {
    r := [];
    var i := 0;
    while i < |w.live|
      invariant 0 <= i <= |w.live|
      invariant forall k :: 0 <= k < |r| ==> exists j :: 0 <= j < i && r[k] == w.live[j]
      invariant Increasing(r)
      invariant forall x :: x in r <==> x in w.live[..i] && HasAll(w, x, names)
    {
      var e := w.live[i];
      if Matches(w, e, names) {
        r := r + [e];
      }
      assert w.live[..i + 1] == w.live[..i] + [e];
      i := i + 1;
    }
    assert w.live[..i] == w.live;
  }

  /** With no types listed every entity qualifies. */
  lemma HasAllEmpty<P>(w: Registry<P>, e: Entity)
    ensures HasAll(w, e, []) && Checkable(w, e, [])
  {
  }
}

=== FILE: event_queue.dfy ===
/**
 * The event queue of src/core/event-queue.ts: per-name listener lists and a
 * batch of queued events. Listeners are identified by value (the source
 * compares function references). What a listener does when called is given
 * as a `Reaction`: the subscribe / unsubscribe calls it makes on the queue.
 */
module EventQueue {

  type EventName = string
  type Listener = int

  datatype Event = Event(name: EventName, payload: int)

  datatype Queue = Queue(events: seq<Event>, listeners: map<EventName, seq<Listener>>)

  /** A call a listener makes back into the queue while it handles an event. */
  datatype Action = SubscribeCall(name: EventName, listener: Listener) | UnsubscribeCall(name: EventName, listener: Listener)

  /** One invocation of a listener with an event. */
  datatype Call = Call(listener: Listener, event: Event)

  /** The handle `subscribe` returns. */
  datatype Subscription = Subscription(name: EventName, listener: Listener)

  type Reaction = (Listener, Event) -> seq<Action>

  function Init(): (q: Queue)
    ensures |q.events| == 0 && q.listeners == map[]
  {
    Queue([], map[])
  }

  /** Array.prototype.indexOf: first position of `l`, or -1. */
  function IndexOf(s: seq<Listener>, l: Listener): (k: int)
    ensures -1 <= k < |s|
    ensures k == -1 <==> l !in s
    ensures k >= 0 ==> s[k] == l && forall j :: 0 <= j < k ==> s[j] != l
  {
    if |s| == 0 then -1
    else if s[0] == l then 0
    else
      var k := IndexOf(s[1..], l);
      if k == -1 then -1 else k + 1
  }

  /** The listener list for a name, empty when the name was never subscribed. */
  function ListenersOf(q: Queue, name: EventName): seq<Listener>
  {
    if name in q.listeners then q.listeners[name] else []
  }

  /** Appends `l` to the list for `name`, creating the list on first use. */
  function Subscribe(q: Queue, name: EventName, l: Listener): (res: (Queue, Subscription))
    ensures res.0.listeners.Keys == q.listeners.Keys + {name}
    ensures res.0.listeners[name] == ListenersOf(q, name) + [l]
    ensures forall n :: n in q.listeners && n != name ==> res.0.listeners[n] == q.listeners[n]
    ensures res.0.events == q.events
    ensures res.1 == Subscription(name, l)
  {
    var list := if name in q.listeners then q.listeners[name] else [];
    (Queue(q.events, q.listeners[name := list + [l]]), Subscription(name, l))
  }

  /** The list without the first occurrence of `l` (`splice(indexOf(l), 1)`). */
  function RemoveFirst(s: seq<Listener>, l: Listener): (r: seq<Listener>)
    ensures l !in s ==> r == s
    ensures l in s ==>
      var i := IndexOf(s, l);
      && |r| == |s| - 1
      && multiset(r) == multiset(s) - multiset{l}
      && r[..i] == s[..i]
      && r[i..] == s[i + 1..]
  {
    var index := IndexOf(s, l);
    if index >= 0 then
      var r := s[..index] + s[index + 1..];
      RemoveAt(s, index);
      assert l in s && s[index] == l;
      assert |r| == |s| - 1 && multiset(r) == multiset(s) - multiset{l};
      assert r[..index] == s[..index] && r[index..] == s[index + 1..];
      r
    else
      assert l !in s;
      s
  }

  /**
   * Removes the FIRST occurrence of `l` from the list for `name`; a no-op
   * when the name or the listener is unknown. Names are never dropped.
   */
  function Unsubscribe(q: Queue, name: EventName, l: Listener): (r: Queue)
    ensures r.listeners.Keys == q.listeners.Keys
    ensures r.events == q.events
    ensures forall n :: n in q.listeners && n != name ==> r.listeners[n] == q.listeners[n]
    ensures l !in ListenersOf(q, name) ==> r == q
    ensures name in q.listeners ==> r.listeners[name] == RemoveFirst(q.listeners[name], l)
  {
    if name in q.listeners && IndexOf(q.listeners[name], l) >= 0 then
      UnsubscribePresent(q, name, l);
      Queue(q.events, q.listeners[name := RemoveFirst(q.listeners[name], l)])
    else
      UnsubscribeAbsent(q, name, l);
      q
  }

  /** With the listener in the name's list, only that list changes. */
  lemma UnsubscribePresent(q: Queue, name: EventName, l: Listener)
    requires name in q.listeners && IndexOf(q.listeners[name], l) >= 0
    ensures l in ListenersOf(q, name)
    ensures var m := q.listeners[name := RemoveFirst(q.listeners[name], l)];
      && m.Keys == q.listeners.Keys
      && (forall n :: n in q.listeners && n != name ==> m[n] == q.listeners[n])
  {
    var m := q.listeners[name := RemoveFirst(q.listeners[name], l)];
    assert m.Keys == q.listeners.Keys;
  }

  /** Without the listener in the name's list, removing its first copy leaves the queue as it is. */
  lemma UnsubscribeAbsent(q: Queue, name: EventName, l: Listener)
    requires !(name in q.listeners && IndexOf(q.listeners[name], l) >= 0)
    ensures l !in ListenersOf(q, name)
    ensures name in q.listeners ==> RemoveFirst(q.listeners[name], l) == q.listeners[name]
  {
  }

  /** What splicing out position i (as `Array.prototype.splice(i, 1)` does) leaves. */
  lemma RemoveAt(s: seq<Listener>, i: int)
    requires 0 <= i < |s|
    ensures var r := s[..i] + s[i + 1..];
      && |r| == |s| - 1
      && multiset(r) == multiset(s) - multiset{s[i]}
      && r[..i] == s[..i]
      && r[i..] == s[i + 1..]
  {
    assert s == s[..i] + [s[i]] + s[i + 1..];
    var r := s[..i] + s[i + 1..];
    assert r[..i] == s[..i];
    assert r[i..] == s[i + 1..];
  }

  /**
   * The subscription handle's `unsubscribe`: the first copy of the handle's
   * listener leaves the handle's list; nothing else changes.
   */
  function Cancel(q: Queue, h: Subscription): (r: Queue)
    ensures r.listeners.Keys == q.listeners.Keys && r.events == q.events
    ensures h.name in q.listeners ==> r.listeners[h.name] == RemoveFirst(q.listeners[h.name], h.listener)
    ensures forall n :: n in q.listeners && n != h.name ==> r.listeners[n] == q.listeners[n]
    ensures h.listener !in ListenersOf(q, h.name) ==> r == q
  {
    Unsubscribe(q, h.name, h.listener)
  }

  /** Cancelling the handle right after subscribing restores the listener list (up to order). */
  lemma SubscribeThenCancel(q: Queue, name: EventName, l: Listener)
    ensures var (q1, h) := Subscribe(q, name, l);
      multiset(Cancel(q1, h).listeners[name]) == multiset(ListenersOf(q, name))
    ensures l !in ListenersOf(q, name) ==>
      var (q1, h) := Subscribe(q, name, l);
      Cancel(q1, h).listeners[name] == ListenersOf(q, name)
  {
    var (q1, h) := Subscribe(q, name, l);
    var old_ := ListenersOf(q, name);
    assert q1.listeners[name] == old_ + [l];
    assert l in q1.listeners[name];
    if l !in old_ {
      assert IndexOf(q1.listeners[name], l) == |old_|;
      assert (old_ + [l])[..|old_|] == old_;
    }
  }

  /** Queues an event; no listener runs. */
  function Dispatch(q: Queue, ev: Event): (r: Queue)
    ensures r.listeners == q.listeners
    ensures |r.events| == |q.events| + 1 && r.events[..|q.events|] == q.events
    ensures r.events[|q.events|] == ev
  {
    Queue(q.events + [ev], q.listeners)
  }

  function Apply(q: Queue, a: Action): (r: Queue)
    ensures r.listeners.Keys >= q.listeners.Keys && r.events == q.events
  {
    match a
    case SubscribeCall(n, l) => Subscribe(q, n, l).0
    case UnsubscribeCall(n, l) => Unsubscribe(q, n, l)
  }

  function ApplyAll(q: Queue, actions: seq<Action>): (r: Queue)
    ensures r.listeners.Keys >= q.listeners.Keys && r.events == q.events
    decreases |actions|
  {
    if |actions| == 0 then q else ApplyAll(Apply(q, actions[0]), actions[1..])
  }

  function ListenersCalled(calls: seq<Call>): seq<Listener>
  {
    if |calls| == 0 then [] else [calls[0].listener] + ListenersCalled(calls[1..])
  }

  lemma {:induction false} CalledAppend(a: seq<Call>, b: seq<Call>)
    ensures ListenersCalled(a + b) == ListenersCalled(a) + ListenersCalled(b)
  {
    if |a| > 0 {
      CalledAppend(a[1..], b);
      assert (a + b)[1..] == a[1..] + b;
    } else {
      assert a + b == b;
    }
  }

  lemma {:induction false} CalledLength(calls: seq<Call>)
    ensures |ListenersCalled(calls)| == |calls|
  {
    if |calls| > 0 { CalledLength(calls[1..]); }
  }

  /**
   * Walks a snapshot of the listener list: each listener still present in the
   * live list is called (and its reaction applied); removed ones are skipped.
   */
  function Deliver(q: Queue, ev: Event, snapshot: seq<Listener>, react: Reaction): (res: (Queue, seq<Call>))
    requires ev.name in q.listeners
    ensures res.0.listeners.Keys >= q.listeners.Keys && res.0.events == q.events
    decreases |snapshot|
  {
    if |snapshot| == 0 then (q, [])
    else
      var l := snapshot[0];
      if l in q.listeners[ev.name] then
        var rest := Deliver(ApplyAll(q, react(l, ev)), ev, snapshot[1..], react);
        (rest.0, [Call(l, ev)] + rest.1)
      else
        Deliver(q, ev, snapshot[1..], react)
  }

  /**
   * Only snapshot entries are called, each at most as often as it occurs in
   * the snapshot: a listener subscribed during delivery is not called.
   */
  lemma {:induction false} DeliverCallsFromSnapshot(q: Queue, ev: Event, snapshot: seq<Listener>, react: Reaction)
    requires ev.name in q.listeners
    ensures var calls := Deliver(q, ev, snapshot, react).1;
      && (forall c :: c in calls ==> c.event == ev && c.listener in snapshot)
      && multiset(ListenersCalled(calls)) <= multiset(snapshot)
      && |calls| <= |snapshot|
    decreases |snapshot|
  {
    if |snapshot| > 0 {
      var l := snapshot[0];
      assert snapshot == [l] + snapshot[1..];
      if l in q.listeners[ev.name] {
        var q1 := ApplyAll(q, react(l, ev));
        DeliverCallsFromSnapshot(q1, ev, snapshot[1..], react);
        var rest := Deliver(q1, ev, snapshot[1..], react).1;
        CalledAppend([Call(l, ev)], rest);
      } else {
        DeliverCallsFromSnapshot(q, ev, snapshot[1..], react);
      }
    }
  }

  /** Adds one to every position. */
  function Shift(p: seq<nat>): (r: seq<nat>)
    ensures |r| == |p| && forall j :: 0 <= j < |p| ==> r[j] == p[j] + 1
  {
    seq(|p|, j requires 0 <= j < |p| => p[j] + 1)
  }

  /** The snapshot positions whose listener `Deliver` calls, in delivery order. */
  ghost function CalledPositions(q: Queue, ev: Event, snapshot: seq<Listener>, react: Reaction): seq<nat>
    requires ev.name in q.listeners
    decreases |snapshot|
  {
    if |snapshot| == 0 then []
    else if snapshot[0] in q.listeners[ev.name] then
      [0] + Shift(CalledPositions(ApplyAll(q, react(snapshot[0], ev)), ev, snapshot[1..], react))
    else
      Shift(CalledPositions(q, ev, snapshot[1..], react))
  }

  /** The queue as it stands when the walk reaches snapshot entry i. */
  ghost function StateAtTurn(q: Queue, ev: Event, snapshot: seq<Listener>, react: Reaction, i: nat): (s: Queue)
    requires ev.name in q.listeners && i <= |snapshot|
    ensures ev.name in s.listeners
  {
    Deliver(q, ev, snapshot[..i], react).0
  }

  /**
   * `calls` go to the snapshot entries at positions `pos`, one call per
   * position, and the positions strictly increase: the calls follow the
   * snapshot's (subscription) order.
   */
  ghost predicate InSnapshotOrder(calls: seq<Call>, pos: seq<nat>, snapshot: seq<Listener>, ev: Event)
  {
    && |pos| == |calls|
    && (forall j :: 0 <= j < |pos| ==> pos[j] < |snapshot| && calls[j] == Call(snapshot[pos[j]], ev))
    && (forall j, k :: 0 <= j < k < |pos| ==> pos[j] < pos[k])
  }

  /**
   * Delivery order for any listeners: the calls go to snapshot entries in
   * snapshot order, and entry i is called exactly when its listener is still
   * in the live list when the walk reaches it.
   */
  lemma {:induction false} DeliverOrder(q: Queue, ev: Event, snapshot: seq<Listener>, react: Reaction)
    requires ev.name in q.listeners
    ensures InSnapshotOrder(Deliver(q, ev, snapshot, react).1, CalledPositions(q, ev, snapshot, react), snapshot, ev)
    ensures forall i :: 0 <= i < |snapshot| ==>
      (i in CalledPositions(q, ev, snapshot, react) <==> snapshot[i] in StateAtTurn(q, ev, snapshot, react, i).listeners[ev.name])
    decreases |snapshot|
  {
    if |snapshot| > 0 {
      var l := snapshot[0];
      var tail := snapshot[1..];
      var pos := CalledPositions(q, ev, snapshot, react);
      if l in q.listeners[ev.name] {
        var q1 := ApplyAll(q, react(l, ev));
        DeliverOrder(q1, ev, tail, react);
        var rest := CalledPositions(q1, ev, tail, react);
        assert pos == [0] + Shift(rest);
        PrependOrdered(Deliver(q1, ev, tail, react).1, rest, snapshot, ev);
        forall i | 0 <= i < |snapshot|
          ensures i in pos <==> snapshot[i] in StateAtTurn(q, ev, snapshot, react, i).listeners[ev.name]
        {
          if i == 0 {
            TurnZero(q, ev, snapshot, react);
          } else {
            TurnAfterFirst(q, ev, snapshot, react, i);
            ShiftMember(rest, i - 1);
          }
        }
      } else {
        DeliverOrder(q, ev, tail, react);
        var rest := CalledPositions(q, ev, tail, react);
        assert pos == Shift(rest);
        PrependOrdered(Deliver(q, ev, tail, react).1, rest, snapshot, ev);
        forall i | 0 <= i < |snapshot|
          ensures i in pos <==> snapshot[i] in StateAtTurn(q, ev, snapshot, react, i).listeners[ev.name]
        {
          if i == 0 {
            TurnZero(q, ev, snapshot, react);
            ShiftMember(rest, 0);
          } else {
            TurnAfterFirst(q, ev, snapshot, react, i);
            ShiftMember(rest, i - 1);
          }
        }
      }
    }
  }

  /** Calls in order over the tail stay in order over the whole snapshot, with or without a call to its head. */
  lemma PrependOrdered(calls: seq<Call>, pos: seq<nat>, snapshot: seq<Listener>, ev: Event)
    requires |snapshot| > 0 && InSnapshotOrder(calls, pos, snapshot[1..], ev)
    ensures InSnapshotOrder(calls, Shift(pos), snapshot, ev)
    ensures InSnapshotOrder([Call(snapshot[0], ev)] + calls, [0] + Shift(pos), snapshot, ev)
  {
    var sp := Shift(pos);
    forall j | 0 <= j < |sp|
      ensures sp[j] < |snapshot| && calls[j] == Call(snapshot[sp[j]], ev)
    {
      assert snapshot[1..][pos[j]] == snapshot[pos[j] + 1];
    }
    var cs := [Call(snapshot[0], ev)] + calls;
    var ps := [0] + sp;
    forall j | 0 <= j < |ps|
      ensures ps[j] < |snapshot| && cs[j] == Call(snapshot[ps[j]], ev)
    {
      if j > 0 {
        assert ps[j] == sp[j - 1] && cs[j] == calls[j - 1];
      }
    }
  }

  lemma ShiftMember(p: seq<nat>, i: nat)
    ensures i + 1 in Shift(p) <==> i in p
    ensures 0 !in Shift(p)
  {
    if i in p {
      var j :| 0 <= j < |p| && p[j] == i;
      assert Shift(p)[j] == i + 1;
    }
  }

  /** At its first turn the walk sees the queue it started from. */
  lemma TurnZero(q: Queue, ev: Event, snapshot: seq<Listener>, react: Reaction)
    requires ev.name in q.listeners
    ensures StateAtTurn(q, ev, snapshot, react, 0) == q
  {
    assert snapshot[..0] == [];
  }

  /** Past the first entry, the walk continues from the queue the first entry left behind. */
  lemma TurnAfterFirst(q: Queue, ev: Event, snapshot: seq<Listener>, react: Reaction, i: nat)
    requires ev.name in q.listeners && 1 <= i <= |snapshot|
    ensures var l := snapshot[0];
      var q1 := if l in q.listeners[ev.name] then ApplyAll(q, react(l, ev)) else q;
      StateAtTurn(q, ev, snapshot, react, i) == StateAtTurn(q1, ev, snapshot[1..], react, i - 1)
  {
    assert snapshot[..i][1..] == snapshot[1..][..i - 1];
    assert snapshot[..i][0] == snapshot[0];
  }

  /** Delivers one event to the listeners subscribed to its name. */
  function HandleEvent(q: Queue, ev: Event, react: Reaction): (res: (Queue, seq<Call>))
    requires ev.name in q.listeners
    ensures res.0.listeners.Keys >= q.listeners.Keys && res.0.events == q.events
    ensures forall c :: c in res.1 ==> c.event == ev && c.listener in q.listeners[ev.name]
    ensures |res.1| <= |q.listeners[ev.name]|
  {
    DeliverCallsFromSnapshot(q, ev, q.listeners[ev.name], react);
    Deliver(q, ev, q.listeners[ev.name], react)
  }

  /**
   * handleEvent calls the listeners subscribed when it starts, in subscription
   * order, skipping each one that is no longer subscribed when its turn comes.
   */
  lemma HandleEventOrder(q: Queue, ev: Event, react: Reaction)
    requires ev.name in q.listeners
    ensures var snapshot := q.listeners[ev.name];
      var pos := CalledPositions(q, ev, snapshot, react);
      && InSnapshotOrder(HandleEvent(q, ev, react).1, pos, snapshot, ev)
      && (forall i :: 0 <= i < |snapshot| ==>
            (i in pos <==> snapshot[i] in StateAtTurn(q, ev, snapshot, react, i).listeners[ev.name]))
  {
    DeliverOrder(q, ev, q.listeners[ev.name], react);
  }

  /**
   * Delivers at once, leaving the queue of pending events untouched: the
   * calls are those `handleEvent` makes, and the listeners end as the walk
   * over the snapshot leaves them.
   */
  function DispatchImmediately(q: Queue, ev: Event, react: Reaction): (res: (Queue, seq<Call>))
    requires ev.name in q.listeners
    ensures res.0.events == q.events
    ensures var snapshot := q.listeners[ev.name];
      var pos := CalledPositions(q, ev, snapshot, react);
      && InSnapshotOrder(res.1, pos, snapshot, ev)
      && (forall i :: 0 <= i < |snapshot| ==>
            (i in pos <==> snapshot[i] in StateAtTurn(q, ev, snapshot, react, i).listeners[ev.name]))
      && res.0 == StateAtTurn(q, ev, snapshot, react, |snapshot|)
    ensures Passive(react) ==> res.0 == q && ListenersCalled(res.1) == q.listeners[ev.name]
  {
    HandleEventOrder(q, ev, react);
    assert q.listeners[ev.name][..|q.listeners[ev.name]|] == q.listeners[ev.name];
    assert Passive(react) ==> HandleEvent(q, ev, react).0 == q && ListenersCalled(HandleEvent(q, ev, react).1) == q.listeners[ev.name] by {
      if Passive(react) {
        PassiveDeliverCallsAll(q, ev, q.listeners[ev.name], react);
      }
    }
    HandleEvent(q, ev, react)
  }

  /**
   * Every event of `evs` finds a listener list when its turn comes, handling
   * them one after another from `q`. A list may be created by a listener of
   * an earlier event.
   */
  ghost predicate KnownAtTurns(q: Queue, evs: seq<Event>, react: Reaction)
    decreases |evs|
  {
    |evs| == 0 || (evs[0].name in q.listeners && KnownAtTurns(HandleEvent(q, evs[0], react).0, evs[1..], react))
  }

  /** The queue as handling reaches `evs[i]`, after the first i events were handled. */
  ghost function QueueBefore(q: Queue, evs: seq<Event>, react: Reaction, i: nat): (s: Queue)
    requires KnownAtTurns(q, evs, react) && i <= |evs|
    ensures i < |evs| ==> evs[i].name in s.listeners
    ensures s.listeners.Keys >= q.listeners.Keys && s.events == q.events
    decreases i
  {
    if i == 0 then q
    else
      assert i < |evs| ==> evs[1..][i - 1] == evs[i];
      QueueBefore(HandleEvent(q, evs[0], react).0, evs[1..], react, i - 1)
  }

  /** A name known before handling starts stays known, so every turn finds it. */
  lemma {:induction false} KnownUpFront(q: Queue, evs: seq<Event>, react: Reaction)
    requires forall i :: 0 <= i < |evs| ==> evs[i].name in q.listeners
    ensures KnownAtTurns(q, evs, react)
    decreases |evs|
  {
    if |evs| > 0 {
      var q1 := HandleEvent(q, evs[0], react).0;
      assert forall i :: 0 <= i < |evs[1..]| ==> evs[1..][i].name in q1.listeners by {
        forall i | 0 <= i < |evs[1..]|
          ensures evs[1..][i].name in q1.listeners
        {
          assert evs[1..][i] == evs[i + 1];
        }
      }
      KnownUpFront(q1, evs[1..], react);
    }
  }

  /**
   * Delivers every queued event in dispatch order; `batches[i]` holds the
   * calls `handleEvent` makes for the i-th event from the queue the earlier
   * events left. The queue of pending events is empty afterwards.
   */
  function HandleEvents(q: Queue, react: Reaction): (res: (Queue, seq<seq<Call>>))
    requires KnownAtTurns(q, q.events, react)
    ensures |res.1| == |q.events|
    ensures forall i :: 0 <= i < |q.events| ==>
      res.1[i] == HandleEvent(QueueBefore(q, q.events, react, i), q.events[i], react).1
    ensures res.0 == Queue([], QueueBefore(q, q.events, react, |q.events|).listeners)
    ensures res.0.listeners.Keys >= q.listeners.Keys
  {
    var (q1, batches) := DeliverAll(q, q.events, react);
    (Queue([], q1.listeners), batches)
  }

  function DeliverAll(q: Queue, evs: seq<Event>, react: Reaction): (res: (Queue, seq<seq<Call>>))
    requires KnownAtTurns(q, evs, react)
    ensures |res.1| == |evs|
    ensures forall i :: 0 <= i < |evs| ==>
      res.1[i] == HandleEvent(QueueBefore(q, evs, react, i), evs[i], react).1
    ensures res.0 == QueueBefore(q, evs, react, |evs|)
    decreases |evs|
  {
    if |evs| == 0 then (q, [])
    else
      var (q1, calls) := HandleEvent(q, evs[0], react);
      var (q2, rest) := DeliverAll(q1, evs[1..], react);
      assert forall i :: 1 <= i < |evs| ==> evs[1..][i - 1] == evs[i];
      (q2, [calls] + rest)
  }

  /** A reaction that never touches the queue. */
  ghost predicate Passive(react: Reaction)
  {
    forall l, ev :: react(l, ev) == []
  }

  /**
   * With passive listeners every snapshot entry is called, in order; a
   * listener subscribed k times is called k times.
   */
  lemma {:induction false} PassiveDeliverCallsAll(q: Queue, ev: Event, snapshot: seq<Listener>, react: Reaction)
    requires ev.name in q.listeners && Passive(react)
    requires forall l :: l in snapshot ==> l in q.listeners[ev.name]
    ensures Deliver(q, ev, snapshot, react).0 == q
    ensures ListenersCalled(Deliver(q, ev, snapshot, react).1) == snapshot
  {
    if |snapshot| > 0 {
      var l := snapshot[0];
      assert react(l, ev) == [];
      PassiveDeliverCallsAll(q, ev, snapshot[1..], react);
    }
  }

  lemma PassiveHandleEvent(q: Queue, ev: Event, react: Reaction, l: Listener)
    requires ev.name in q.listeners && Passive(react)
    ensures ListenersCalled(HandleEvent(q, ev, react).1) == q.listeners[ev.name]
    ensures multiset(ListenersCalled(HandleEvent(q, ev, react).1))[l] == multiset(q.listeners[ev.name])[l]
  {
    PassiveDeliverCallsAll(q, ev, q.listeners[ev.name], react);
  }

  /**
   * With passive listeners, `handleEvents` calls every listener of each
   * queued event, in subscription order, and leaves the listeners as they were.
   */
  lemma {:induction false} PassiveDeliverAll(q: Queue, evs: seq<Event>, react: Reaction)
    requires Passive(react) && forall i :: 0 <= i < |evs| ==> evs[i].name in q.listeners
    ensures KnownAtTurns(q, evs, react)
    ensures DeliverAll(q, evs, react).0 == q
    ensures forall i :: 0 <= i < |evs| ==> ListenersCalled(DeliverAll(q, evs, react).1[i]) == q.listeners[evs[i].name]
    decreases |evs|
  {
    KnownUpFront(q, evs, react);
    if |evs| > 0 {
      PassiveDeliverCallsAll(q, evs[0], q.listeners[evs[0].name], react);
      assert HandleEvent(q, evs[0], react).0 == q;
      assert forall i :: 0 <= i < |evs[1..]| ==> evs[1..][i].name in q.listeners by {
        forall i | 0 <= i < |evs[1..]|
          ensures evs[1..][i].name in q.listeners
        {
          assert evs[1..][i] == evs[i + 1];
        }
      }
      PassiveDeliverAll(q, evs[1..], react);
      forall i | 0 <= i < |evs|
        ensures ListenersCalled(DeliverAll(q, evs, react).1[i]) == q.listeners[evs[i].name]
      {
        if i > 0 {
          assert evs[1..][i - 1] == evs[i];
        }
      }
    }
  }

  /** Test reaction: listener 1 unsubscribes listener 2 from "Foo". */
  function UnsubscribesSecond(l: Listener, ev: Event): seq<Action>
  {
    if l == 1 then [UnsubscribeCall("Foo", 2)] else []
  }

  /** Test reaction: listener 1 subscribes listener 2 to "Foo". */
  function SubscribesSecond(l: Listener, ev: Event): seq<Action>
  {
    if l == 1 then [SubscribeCall("Foo", 2)] else []
  }

  /** Test reaction: listener 1 subscribes listener 2 to "Bar". */
  function SubscribesToBar(l: Listener, ev: Event): seq<Action>
  {
    if l == 1 then [SubscribeCall("Bar", 2)] else []
  }

  const Foo: Event := Event("Foo", 123)
  const ThreeListeners: Queue := Queue([Foo], map["Foo" := [1, 2, 3]])
  const SecondRemoved: Queue := Queue([Foo], map["Foo" := [1, 3]])

  lemma FirstReactionRemovesSecond()
    ensures ApplyAll(ThreeListeners, UnsubscribesSecond(1, Foo)) == SecondRemoved
  {
    UnsubscribeSecondOfThree();
    var actions := [UnsubscribeCall("Foo", 2)];
    assert UnsubscribesSecond(1, Foo) == actions;
    assert actions[1..] == [];
    assert ApplyAll(ThreeListeners, actions) == ApplyAll(SecondRemoved, []);
  }

  lemma UnsubscribeSecondOfThree()
    ensures Unsubscribe(ThreeListeners, "Foo", 2) == SecondRemoved
  {
    RemoveSecondOfThree();
    UnsubscribeOnlyList(ThreeListeners, "Foo", 2, [1, 3]);
  }

  /** Unsubscribing from the only list replaces that list by its spliced copy. */
  lemma UnsubscribeOnlyList(q: Queue, name: EventName, l: Listener, rest: seq<Listener>)
    requires q.listeners.Keys == {name} && RemoveFirst(q.listeners[name], l) == rest
    ensures Unsubscribe(q, name, l) == Queue(q.events, map[name := rest])
  {
    assert name in q.listeners;
    var r := Unsubscribe(q, name, l);
    var m := map[name := rest];
    assert r.listeners.Keys == m.Keys;
    assert r.listeners[name] == m[name];
    assert r.listeners == m;
  }

  lemma RemoveSecondOfThree()
    ensures RemoveFirst([1, 2, 3], 2) == [1, 3]
  {
    var list := [1, 2, 3];
    assert IndexOf(list, 2) == 1 by {
      assert list[1..] == [2, 3];
      assert IndexOf([2, 3], 2) == 0;
    }
    assert list[..1] == [1] && list[2..] == [3];
  }

  lemma DeliverAfterRemoval()
    ensures Deliver(SecondRemoved, Foo, [2, 3], UnsubscribesSecond) == (SecondRemoved, [Call(3, Foo)])
  {
    assert UnsubscribesSecond(3, Foo) == [];
    assert [2, 3][1..] == [3] && [3][1..] == [];
    assert Deliver(SecondRemoved, Foo, [], UnsubscribesSecond) == (SecondRemoved, []);
    assert [Call(3, Foo)] + [] == [Call(3, Foo)];
    assert Deliver(SecondRemoved, Foo, [3], UnsubscribesSecond) == (SecondRemoved, [Call(3, Foo)]);
  }

  /**
   * Listener 1 unsubscribes listener 2 while handling the event; listener 3
   * is untouched. Only 1 and 3 are called.
   */
  lemma UnsubscribeDuringDelivery()
    ensures var (q', batches) := HandleEvents(ThreeListeners, UnsubscribesSecond);
      |batches| == 1 && ListenersCalled(batches[0]) == [1, 3]
        && q'.listeners["Foo"] == [1, 3] && |q'.events| == 0
  {
    DeliverFooOnThree();
    CalledOneAndThree();
  }

  lemma DeliverFooOnThree()
    ensures DeliverAll(ThreeListeners, [Foo], UnsubscribesSecond) == (SecondRemoved, [[Call(1, Foo), Call(3, Foo)]])
  {
    HandleFooOnThree();
    DeliverOne(ThreeListeners, Foo, UnsubscribesSecond);
  }

  /** A batch of one event is a single `handleEvent`. */
  lemma DeliverOne(q: Queue, ev: Event, react: Reaction)
    requires ev.name in q.listeners
    ensures KnownAtTurns(q, [ev], react)
    ensures DeliverAll(q, [ev], react) == (HandleEvent(q, ev, react).0, [HandleEvent(q, ev, react).1])
  {
    var (q1, calls) := HandleEvent(q, ev, react);
    assert [ev][1..] == [];
    assert KnownAtTurns(q1, [], react);
    assert DeliverAll(q1, [], react) == (q1, []);
    assert [calls] + [] == [calls];
  }

  lemma CalledOneAndThree()
    ensures ListenersCalled([Call(1, Foo), Call(3, Foo)]) == [1, 3]
  {
    var calls := [Call(1, Foo), Call(3, Foo)];
    assert calls[1..] == [Call(3, Foo)] && [Call(3, Foo)][1..] == [];
    assert ListenersCalled([Call(3, Foo)]) == [3];
  }

  /** Delivering "Foo" to [1, 2, 3]: 1 removes 2, so 1 and 3 are called. */
  lemma HandleFooOnThree()
    ensures HandleEvent(ThreeListeners, Foo, UnsubscribesSecond) == (SecondRemoved, [Call(1, Foo), Call(3, Foo)])
  {
    FirstReactionRemovesSecond();
    DeliverAfterRemoval();
    assert [1, 2, 3][1..] == [2, 3];
    assert ThreeListeners.listeners["Foo"] == [1, 2, 3];
    assert [Call(1, Foo)] + [Call(3, Foo)] == [Call(1, Foo), Call(3, Foo)];
    assert Deliver(ThreeListeners, Foo, [1, 2, 3], UnsubscribesSecond) == (SecondRemoved, [Call(1, Foo), Call(3, Foo)]);
  }

  /** A listener added while an event is delivered is not called for that event. */
  lemma SubscribeDuringDelivery()
    ensures var q := Queue([], map["Foo" := [1]]);
      var (q', calls) := DispatchImmediately(q, Event("Foo", 0), SubscribesSecond);
      ListenersCalled(calls) == [1] && q'.listeners["Foo"] == [1, 2]
  {
    var ev := Event("Foo", 0);
    var q := Queue([], map["Foo" := [1]]);
    var qa := Subscribe(q, "Foo", 2).0;
    assert qa.listeners["Foo"] == [1, 2];
    assert ApplyAll(qa, []) == qa;
    assert ApplyAll(q, SubscribesSecond(1, ev)) == qa;
    assert [1][1..] == [];
    assert Deliver(qa, ev, [], SubscribesSecond) == (qa, []);
    assert [Call(1, ev)] + [] == [Call(1, ev)];
    assert Deliver(q, ev, [1], SubscribesSecond) == (qa, [Call(1, ev)]);
  }

  /**
   * "Bar" has no listener list when `handleEvents` starts; handling "Foo"
   * first creates it, so the queued "Bar" is delivered to the new listener.
   */
  lemma ListCreatedByEarlierEvent()
    ensures var q := Queue([Event("Foo", 0), Event("Bar", 0)], map["Foo" := [1]]);
      && "Bar" !in q.listeners
      && KnownAtTurns(q, q.events, SubscribesToBar)
      && HandleEvents(q, SubscribesToBar).1 == [[Call(1, Event("Foo", 0))], [Call(2, Event("Bar", 0))]]
  {
    var foo, bar := Event("Foo", 0), Event("Bar", 0);
    var evs := [foo, bar];
    var q := Queue(evs, map["Foo" := [1]]);
    var q1 := Queue(evs, map["Foo" := [1], "Bar" := [2]]);
    assert ListenersOf(q, "Bar") + [2] == [2];
    assert q.listeners["Bar" := [2]] == q1.listeners;
    assert Subscribe(q, "Bar", 2).0 == q1;
    assert ApplyAll(q1, []) == q1;
    assert ApplyAll(q, SubscribesToBar(1, foo)) == q1;
    assert [1][1..] == [];
    assert Deliver(q1, foo, [], SubscribesToBar) == (q1, []);
    assert [Call(1, foo)] + [] == [Call(1, foo)];
    assert Deliver(q, foo, [1], SubscribesToBar) == (q1, [Call(1, foo)]);
    assert HandleEvent(q, foo, SubscribesToBar) == (q1, [Call(1, foo)]);
    assert SubscribesToBar(2, bar) == [];
    assert [2][1..] == [];
    assert Deliver(q1, bar, [], SubscribesToBar) == (q1, []);
    assert ApplyAll(q1, SubscribesToBar(2, bar)) == q1;
    assert [Call(2, bar)] + [] == [Call(2, bar)];
    assert Deliver(q1, bar, [2], SubscribesToBar) == (q1, [Call(2, bar)]);
    assert HandleEvent(q1, bar, SubscribesToBar) == (q1, [Call(2, bar)]);
    assert evs[1..] == [bar] && [bar][1..] == [];
    assert KnownAtTurns(q1, [], SubscribesToBar);
    assert KnownAtTurns(q1, [bar], SubscribesToBar);
    assert KnownAtTurns(q, evs, SubscribesToBar);
    assert DeliverAll(q1, [], SubscribesToBar) == (q1, []);
    assert [[Call(2, bar)]] + [] == [[Call(2, bar)]];
    assert DeliverAll(q1, [bar], SubscribesToBar) == (q1, [[Call(2, bar)]]);
    assert [[Call(1, foo)]] + [[Call(2, bar)]] == [[Call(1, foo)], [Call(2, bar)]];
    assert DeliverAll(q, evs, SubscribesToBar) == (q1, [[Call(1, foo)], [Call(2, bar)]]);
  }
}

=== FILE: frame_animation.dfy ===
/**
 * The FrameAnimation component of src/components/frame-animation.ts: named
 * animations made of frames with relative durations, a current animation,
 * a position in [0, 1] along it and a playback speed.
 */
module FrameAnimationComponent {
  import opened Wrappers
  import opened Geometry

  datatype Mode = Once | Repeat | Pingpong

  datatype Frame = Frame(rect: Aabb, relativeDuration: real)

  datatype Animation = Animation(duration: real, frames: seq<Frame>, mode: Mode)

  /** A frame together with the running total of durations up to and including it. */
  datatype InitializedFrame = InitializedFrame(rect: Aabb, relativeDuration: real, relativeEndPosition: real)

  datatype InitializedAnimation = InitializedAnimation(
    duration: real,
    frames: seq<InitializedFrame>,
    mode: Mode,
    relativeUnitsDuration: real)

  datatype FrameAnimation = FrameAnimation(
    animations: map<string, InitializedAnimation>,
    currentAnimation: Option<string>,   // None stands for the source's null
    position: real,
    speed: real)

  // ---------------------------------------------------------------------------
  // Construction

  /** Sum of the relative durations. */
  function TotalDuration(frames: seq<Frame>): real
  {
    if |frames| == 0 then 0.0 else frames[0].relativeDuration + TotalDuration(frames[1..])
  }

  /** The constructor's inner loop: each frame ends where the running total stands after it. */
  function InitFrames(frames: seq<Frame>, start: real): (r: seq<InitializedFrame>)
    ensures |r| == |frames|
    ensures forall i :: 0 <= i < |frames| ==>
      && r[i].rect == frames[i].rect
      && r[i].relativeDuration == frames[i].relativeDuration
      && r[i].relativeEndPosition == start + TotalDuration(frames[..i + 1])
  {
    if |frames| == 0 then []
    else
      var end := start + frames[0].relativeDuration;
      var rest := InitFrames(frames[1..], end);
      forall i | 1 <= i < |frames|
        ensures TotalDuration(frames[..i + 1]) == frames[0].relativeDuration + TotalDuration(frames[1..][..i])
      {
        assert frames[..i + 1][1..] == frames[1..][..i];
      }
      [InitializedFrame(frames[0].rect, frames[0].relativeDuration, end)] + rest
  }

  ghost predicate SortedByEnd(s: seq<InitializedFrame>)
  {
    forall i, j :: 0 <= i < j < |s| ==> s[i].relativeEndPosition <= s[j].relativeEndPosition
  }

  /** Inserts `x` after every element whose end is not greater than its own. */
  function InsertByEnd(s: seq<InitializedFrame>, x: InitializedFrame): (r: seq<InitializedFrame>)
    ensures multiset(r) == multiset(s) + multiset{x}
    ensures |r| == |s| + 1
  {
    if |s| == 0 then [x]
    else if s[|s| - 1].relativeEndPosition <= x.relativeEndPosition then s + [x]
    else
      assert s == s[..|s| - 1] + [s[|s| - 1]];
      InsertByEnd(s[..|s| - 1], x) + [s[|s| - 1]]
  }

  /** Inserting below a bound keeps every element below it. */
  lemma {:induction false} InsertBounded(s: seq<InitializedFrame>, x: InitializedFrame, b: real)
    requires forall i :: 0 <= i < |s| ==> s[i].relativeEndPosition <= b
    requires x.relativeEndPosition <= b
    ensures forall i :: 0 <= i < |s| + 1 ==> InsertByEnd(s, x)[i].relativeEndPosition <= b
  {
    if |s| > 0 && s[|s| - 1].relativeEndPosition > x.relativeEndPosition {
      InsertBounded(s[..|s| - 1], x, b);
    }
  }

  /** Insertion into a sorted list keeps it sorted. */
  lemma {:induction false} InsertSorted(s: seq<InitializedFrame>, x: InitializedFrame)
    requires SortedByEnd(s)
    ensures SortedByEnd(InsertByEnd(s, x))
  {
    if |s| > 0 && s[|s| - 1].relativeEndPosition > x.relativeEndPosition {
      var prefix := s[..|s| - 1];
      var last := s[|s| - 1];
      InsertSorted(prefix, x);
      InsertBounded(prefix, x, last.relativeEndPosition);
      var front := InsertByEnd(prefix, x);
      var r := front + [last];
      assert InsertByEnd(s, x) == r;
      forall i, j | 0 <= i < j < |r|
        ensures r[i].relativeEndPosition <= r[j].relativeEndPosition
      {
        if j < |front| {
          assert r[i] == front[i] && r[j] == front[j];
        } else {
          assert r[i] == front[i];
        }
      }
    }
  }

  /** Array.prototype.sort by end position, as a stable insertion sort. */
  function SortByEnd(s: seq<InitializedFrame>): (r: seq<InitializedFrame>)
    ensures SortedByEnd(r)
    ensures multiset(r) == multiset(s)
    ensures |r| == |s|
  {
    if |s| == 0 then []
    else
      var sorted := SortByEnd(s[..|s| - 1]);
      InsertSorted(sorted, s[|s| - 1]);
      assert s == s[..|s| - 1] + [s[|s| - 1]];
      InsertByEnd(sorted, s[|s| - 1])
  }

  /** Sorting an already sorted list changes nothing. */
  lemma {:induction false} SortSortedIdentity(s: seq<InitializedFrame>)
    requires SortedByEnd(s)
    ensures SortByEnd(s) == s
  {
    if |s| > 0 {
      var prefix := s[..|s| - 1];
      var x := s[|s| - 1];
      assert s == prefix + [x];
      assert SortedByEnd(prefix);
      SortSortedIdentity(prefix);
      InsertLast(prefix, x);
    }
  }

  /** An element ending no earlier than a sorted list's last one is inserted at the end. */
  lemma InsertLast(s: seq<InitializedFrame>, x: InitializedFrame)
    requires SortedByEnd(s + [x])
    ensures InsertByEnd(s, x) == s + [x]
  {
    if |s| > 0 {
      assert (s + [x])[|s| - 1] == s[|s| - 1];
      assert (s + [x])[|s|] == x;
    }
  }

  ghost predicate NonNegativeDurations(frames: seq<Frame>)
  {
    forall i :: 0 <= i < |frames| ==> frames[i].relativeDuration >= 0.0
  }

  /** Running totals of non-negative durations never decrease, and the last one is the total. */
  lemma {:induction false} PrefixSumsGrow(frames: seq<Frame>, i: int, j: int)
    requires NonNegativeDurations(frames)
    requires 0 <= i <= j <= |frames|
    ensures TotalDuration(frames[..i]) <= TotalDuration(frames[..j])
    ensures TotalDuration(frames[..i]) >= 0.0
    decreases |frames|
  {
    if |frames| > 0 && j > 0 {
      var rest := frames[1..];
      assert NonNegativeDurations(rest);
      if i > 0 {
        PrefixSumsGrow(rest, i - 1, j - 1);
        assert frames[..i][1..] == rest[..i - 1];
      } else {
        PrefixSumsGrow(rest, 0, j - 1);
        assert rest[..0] == [];
      }
      assert frames[..j][1..] == rest[..j - 1];
    }
  }

  /** The animation the constructor builds from `a`. */
  function InitAnimation(a: Animation): (r: InitializedAnimation)
    ensures r.duration == a.duration && r.mode == a.mode
    ensures r.relativeUnitsDuration == TotalDuration(a.frames)
    ensures multiset(r.frames) == multiset(InitFrames(a.frames, 0.0))
    ensures SortedByEnd(r.frames)
  {
    InitializedAnimation(a.duration, SortByEnd(InitFrames(a.frames, 0.0)), a.mode, TotalDuration(a.frames))
  }

  /**
   * With non-negative durations the sort keeps the frames in order, so frame
   * i ends at the sum of the first i + 1 durations and the last one ends at
   * the total.
   */
  lemma InitAnimationPrefixSums(a: Animation)
    requires NonNegativeDurations(a.frames)
    ensures var r := InitAnimation(a);
      && |r.frames| == |a.frames|
      && (forall i :: 0 <= i < |a.frames| ==>
            && r.frames[i].rect == a.frames[i].rect
            && r.frames[i].relativeEndPosition == TotalDuration(a.frames[..i + 1]))
      && (|a.frames| > 0 ==> r.frames[|a.frames| - 1].relativeEndPosition == r.relativeUnitsDuration)
      && r.relativeUnitsDuration >= 0.0
  {
    var f := InitFrames(a.frames, 0.0);
    forall i, j | 0 <= i < j < |f|
      ensures f[i].relativeEndPosition <= f[j].relativeEndPosition
    {
      PrefixSumsGrow(a.frames, i + 1, j + 1);
    }
    SortSortedIdentity(f);
    assert a.frames[..|a.frames|] == a.frames;
    PrefixSumsGrow(a.frames, |a.frames|, |a.frames|);
  }

  /** A falsy name (null or the empty string) means no animation is playing. */
  predicate Playing(a: FrameAnimation)
  {
    a.currentAnimation.Some? && a.currentAnimation.value != ""
  }

  /** The current animation, when playing, is one of the known ones (else the source throws). */
  ghost predicate Ready(a: FrameAnimation)
  {
    Playing(a) ==> a.currentAnimation.value in a.animations
  }

  /** The constructor, with the source's `||` defaults for the optional arguments. */
  function New(animations: map<string, Animation>, currentAnimation: Option<string>,
               position: Option<real>, speed: Option<real>): (a: FrameAnimation)
    ensures a.animations.Keys == animations.Keys
    ensures forall n :: n in animations ==> a.animations[n] == InitAnimation(animations[n])
    ensures Playing(a) <==> currentAnimation.Some? && currentAnimation.value != ""
    ensures Playing(a) ==> a.currentAnimation == currentAnimation
    ensures a.position == position.GetOr(0.0)
    ensures a.speed != 0.0
    ensures speed.Some? && speed.value != 0.0 ==> a.speed == speed.value
    ensures speed.None? || speed.value == 0.0 ==> a.speed == 1.0
  {
    var anims := map n | n in animations :: InitAnimation(animations[n]);
    var current := if currentAnimation.Some? && currentAnimation.value != "" then currentAnimation else None;
    var pos := if position.Some? && position.value != 0.0 then position.value else 0.0;
    var spd := if speed.Some? && speed.value != 0.0 then speed.value else 1.0;
    FrameAnimation(anims, current, pos, spd)
  }

  // ---------------------------------------------------------------------------
  // Position arithmetic

  /** JavaScript's `x % m` for a non-negative x and a positive m. */
  function Rem(x: real, m: real): (r: real)
    requires x >= 0.0 && m > 0.0
    ensures 0.0 <= r < m
    ensures x < m ==> r == x
    ensures (x / m).Floor >= 0 && x == (x / m).Floor as real * m + r
  {
    var q := (x / m).Floor;
    FloorBounds(x, m);
    QuotientNonNegative(x, m, q);
    if x < m then
      QuotientZero(x, m, q);
      x - q as real * m
    else
      x - q as real * m
  }

  /** The whole number of m's in x brackets x: q·m <= x < (q + 1)·m. */
  lemma FloorBounds(x: real, m: real)
    requires m > 0.0
    ensures (x / m).Floor as real * m <= x < (x / m).Floor as real * m + m
  {
    var d := x / m;
    var q := d.Floor;
    assert d * m == x;
    assert q as real <= d < q as real + 1.0;
    MulMono(q as real, d, m);
    MulMono(d, q as real + 1.0, m);
    assert d * m < (q as real + 1.0) * m;
    assert (q as real + 1.0) * m == q as real * m + m;
    assert q as real * m <= x;
    assert x < q as real * m + m;
  }

  lemma QuotientNonNegative(x: real, m: real, q: int)
    requires x >= 0.0 && m > 0.0
    requires q as real * m <= x < q as real * m + m
    ensures q >= 0
  {
    if q < 0 {
      MulMono(q as real, -1.0, m);
    }
  }

  lemma QuotientZero(x: real, m: real, q: int)
    requires 0.0 <= x < m
    requires q >= 0 && q as real * m <= x
    ensures q == 0
  {
    if q >= 1 {
      MulMono(1.0, q as real, m);
    }
  }

  /** Euclidean division by m is unique: any split x = k·m + r with r in [0, m) is Rem's. */
  lemma RemUnique(x: real, m: real, k: int, r: real)
    requires x >= 0.0 && m > 0.0 && 0.0 <= r < m
    requires x == k as real * m + r
    ensures Rem(x, m) == r && (x / m).Floor == k
  {
    FloorUnique(x, m, k, r);
  }

  /** A split x = k·m + r with r in [0, m) fixes k as the floor of x / m. */
  lemma FloorUnique(x: real, m: real, k: int, r: real)
    requires m > 0.0 && 0.0 <= r < m
    requires x == k as real * m + r
    ensures (x / m).Floor == k
  {
    var d := r / m;
    assert d * m == r;
    if d < 0.0 { MulMono(d, 0.0, m); }
    if d >= 1.0 { MulMono(1.0, d, m); }
    assert (k as real + d) * m == k as real * m + d * m;
    assert x / m == k as real + d;
  }

  lemma MulMono(a: real, b: real, m: real)
    requires a <= b && m > 0.0
    ensures a * m <= b * m
    ensures a < b ==> a * m < b * m
  {
  }

  /** The mathematical fractional part of x, in [0, 1). */
  function Frac(x: real): (r: real)
    ensures 0.0 <= r < 1.0
  {
    x - x.Floor as real
  }

  /** `x % 1` for non-negative x is the fractional part. */
  lemma RemOneIsFrac(x: real)
    requires x >= 0.0
    ensures Rem(x, 1.0) == Frac(x)
  {
    assert x / 1.0 == x;
  }

  /** The pingpong wrap loop `while (p > 1) p = 2 - (p % 2)`, with `fuel` iterations at most. */
  function PingpongFold(p: real, fuel: nat): Option<real>
    decreases fuel
  {
    if p <= 1.0 then Some(p)
    else if fuel == 0 then None
    else PingpongFold(2.0 - Rem(p, 2.0), fuel - 1)
  }

  /** The inputs on which the pingpong loop never ends: even numbers from 2 up. */
  ghost predicate PingpongDiverges(p: real)
  {
    p >= 2.0 && Rem(p, 2.0) == 0.0
  }

  /** At an even position of 2 or more the loop is stuck at 2, whatever the iteration budget. */
  lemma {:induction false} PingpongStuck(p: real, fuel: nat)
    requires PingpongDiverges(p)
    ensures PingpongFold(p, fuel) == None
    decreases fuel
  {
    if fuel > 0 {
      assert 2.0 - Rem(p, 2.0) == 2.0;
      assert Rem(2.0, 2.0) == 0.0 by {
        assert (2.0 / 2.0).Floor == 1;
      }
      PingpongStuck(2.0, fuel - 1);
    }
  }

  /** Elsewhere the loop stops within two iterations, in [.., 1], and more budget changes nothing. */
  lemma PingpongSettles(p: real, fuel: nat)
    requires !PingpongDiverges(p) && fuel >= 2
    ensures PingpongFold(p, fuel) == PingpongFold(p, 2)
    ensures PingpongFold(p, 2).Some? && PingpongFold(p, 2).value <= 1.0
    ensures p > 1.0 ==> PingpongFold(p, 2).value > 0.0
  {
    if p > 1.0 {
      var q := 2.0 - Rem(p, 2.0);
      assert 0.0 < q < 2.0;
      assert PingpongFold(p, fuel) == PingpongFold(q, fuel - 1);
      assert PingpongFold(p, 2) == PingpongFold(q, 1);
      if q > 1.0 {
        var q2 := 2.0 - Rem(q, 2.0);
        assert Rem(q, 2.0) == q;
        assert 0.0 < q2 < 1.0;
        assert PingpongFold(q, fuel - 1) == PingpongFold(q2, fuel - 2) == Some(q2);
        assert PingpongFold(q, 1) == PingpongFold(q2, 0) == Some(q2);
      }
    }
  }

  /** The triangle wave of period 2: rises from 0 to 1 on [0, 1] and falls back to 0 on [1, 2]. */
  function Triangle(p: real): (t: real)
    requires p >= 0.0
    ensures 0.0 <= t <= 1.0
    ensures p <= 1.0 ==> t == p
    ensures 1.0 <= p <= 2.0 ==> t == 2.0 - p
  {
    var m := Rem(p, 2.0);
    assert p == 2.0 ==> m == 0.0 by {
      if p == 2.0 { RemUnique(2.0, 2.0, 1, 0.0); }
    }
    if m <= 1.0 then m else 2.0 - m
  }

  /** The wave repeats every 2 units. */
  lemma TrianglePeriodic(p: real)
    requires p >= 0.0
    ensures Triangle(p + 2.0) == Triangle(p)
  {
    var k := (p / 2.0).Floor;
    RemUnique(p + 2.0, 2.0, k + 1, Rem(p, 2.0));
  }

  /** Where the wrap loop ends: at p itself below 1, on the triangle wave for p >= 0. */
  lemma PingpongFoldValue(p: real)
    requires !PingpongDiverges(p)
    ensures PingpongFold(p, 2).Some?
    ensures p <= 1.0 ==> PingpongFold(p, 2).value == p
    ensures p >= 0.0 ==> PingpongFold(p, 2).value == Triangle(p)
  {
    if p <= 1.0 {
      if p >= 0.0 {
        assert Rem(p, 2.0) == p;
      }
    } else {
      var m := Rem(p, 2.0);
      var q := 2.0 - m;
      assert PingpongFold(p, 2) == PingpongFold(q, 1);
      if p < 2.0 {
        assert m == p;
      } else {
        assert m != 0.0;
      }
      assert 0.0 < q < 2.0;
      if q > 1.0 {
        assert Rem(q, 2.0) == q;
        assert PingpongFold(q, 1) == PingpongFold(2.0 - q, 0);
      }
    }
  }

  /**
   * Pingpong mode, when the wrap loop terminates: a non-negative advanced
   * position p lands on the triangle wave; a negative one is reflected to
   * the fractional part of -p.
   */
  function AdvancePingpong(position: real, amount: real): (r: real)
    requires !PingpongDiverges(position + amount / 2.0)
    ensures 0.0 <= r <= 1.0
    ensures position + amount / 2.0 >= 0.0 ==> r == Triangle(position + amount / 2.0)
    ensures position + amount / 2.0 < 0.0 ==> r == Frac(-(position + amount / 2.0))
  {
    var p := position + amount / 2.0;
    PingpongFoldValue(p);
    var f := PingpongFold(p, 2).value;
    if f < 0.0 then
      RemOneIsFrac(-f);
      Rem(-f, 1.0)
    else
      f
  }

  /** Repeat mode: wrap the advanced position into [0, 1). */
  function AdvanceRepeat(position: real, amount: real): (r: real)
    ensures 0.0 <= r < 1.0
  {
    var p := position + amount;
    var p := if p < 0.0 then 1.0 - Rem(-p, 1.0) else p;
    Rem(p, 1.0)
  }

  /** The repeat wrap is the fractional part of the advanced position, also for negative ones. */
  lemma AdvanceRepeatIsFrac(position: real, amount: real)
    ensures AdvanceRepeat(position, amount) == Frac(position + amount)
  {
    var p := position + amount;
    if p < 0.0 {
      var y := -p;
      RemOneIsFrac(y);
      var w := 1.0 - Frac(y);
      RemOneIsFrac(w);
      if y.Floor as real == y {
        assert w == 1.0;
        assert p.Floor == -y.Floor;
        assert Frac(w) == 0.0;
      } else {
        assert p.Floor == -y.Floor - 1;
        assert 0.0 < w < 1.0;
        assert w.Floor == 0;
      }
    } else {
      RemOneIsFrac(p);
    }
  }

  /** Once mode: clamp the advanced position to [0, 1]. */
  function AdvanceOnce(position: real, amount: real): (r: real)
    ensures 0.0 <= r <= 1.0
    ensures 0.0 <= position + amount <= 1.0 ==> r == position + amount
    ensures position + amount < 0.0 ==> r == 0.0
    ensures position + amount > 1.0 ==> r == 1.0
  {
    Max(0.0, Min(1.0, position + amount))
  }

  /** The mode `advancePosition` reads: that of the animation `getCurrentAnimation` returns. */
  function CurrentMode(a: FrameAnimation): (m: Mode)
    requires Ready(a) && Playing(a)
    ensures GetCurrentAnimation(a).Some? && m == GetCurrentAnimation(a).value.mode
  {
    a.animations[a.currentAnimation.value].mode
  }

  /** What `advancePosition` needs to terminate: pingpong must not hit an even position. */
  ghost predicate CanAdvance(a: FrameAnimation, amount: real)
  {
    && Ready(a)
    && (Playing(a) && CurrentMode(a) == Pingpong ==> !PingpongDiverges(a.position + amount * a.speed / 2.0))
  }

  /** Moves the position by `amount` scaled by the speed, according to the current mode. */
  function AdvancePosition(a: FrameAnimation, amount: real): (r: FrameAnimation)
    requires CanAdvance(a, amount)
    ensures r.animations == a.animations && r.currentAnimation == a.currentAnimation && r.speed == a.speed
    ensures !Playing(a) ==> r == a
    ensures Playing(a) ==> 0.0 <= r.position <= 1.0
    ensures Playing(a) && CurrentMode(a) == Repeat ==> r.position < 1.0 && r.position == Frac(a.position + amount * a.speed)
    ensures Playing(a) && CurrentMode(a) == Once ==>
      && (0.0 <= a.position + amount * a.speed <= 1.0 ==> r.position == a.position + amount * a.speed)
      && (a.position + amount * a.speed < 0.0 ==> r.position == 0.0)
      && (a.position + amount * a.speed > 1.0 ==> r.position == 1.0)
    ensures Playing(a) && CurrentMode(a) == Pingpong ==>
      var p := a.position + amount * a.speed / 2.0;
      r.position == (if p >= 0.0 then Triangle(p) else Frac(-p))
  {
    if !Playing(a) then a
    else
      var amount := amount * a.speed;
      match CurrentMode(a)
      case Once => a.(position := AdvanceOnce(a.position, amount))
      case Pingpong => a.(position := AdvancePingpong(a.position, amount))
      case Repeat =>
        AdvanceRepeatIsFrac(a.position, amount);
        a.(position := AdvanceRepeat(a.position, amount))
  }

  /** Restarts from 0 and advances by `position` (which the speed scales, as in the source). */
  function SetPosition(a: FrameAnimation, position: real): (r: FrameAnimation)
    requires CanAdvance(a.(position := 0.0), position)
    ensures r.currentAnimation == a.currentAnimation && r.speed == a.speed
    ensures !Playing(a) ==> r.position == 0.0
    ensures Playing(a) ==> 0.0 <= r.position <= 1.0
    ensures Playing(a) && CurrentMode(a) == Once && 0.0 <= position * a.speed <= 1.0 ==> r.position == position * a.speed
  {
    AdvancePosition(a.(position := 0.0), position)
  }

  /** The speed never drops below 0.0001. */
  function SetSpeed(a: FrameAnimation, speed: real): (r: FrameAnimation)
    ensures r.speed >= 0.0001
    ensures speed >= 0.0001 ==> r.speed == speed
    ensures r.animations == a.animations && r.currentAnimation == a.currentAnimation && r.position == a.position
  {
    a.(speed := Max(0.0001, speed))
  }

  function PlayAnimation(a: FrameAnimation, name: string, position: real): (r: FrameAnimation)
    ensures r.currentAnimation == Some(name) && r.position == position
    ensures r.animations == a.animations && r.speed == a.speed
  {
    a.(currentAnimation := Some(name), position := position)
  }

  /** Starts `name` from 0 unless it is already the current animation. */
  function PlayOrContinueAnimation(a: FrameAnimation, name: string): (r: FrameAnimation)
    ensures a.currentAnimation == Some(name) ==> r == a
    ensures a.currentAnimation != Some(name) ==> r == PlayAnimation(a, name, 0.0)
  {
    if a.currentAnimation != Some(name) then PlayAnimation(a, name, 0.0) else a
  }

  lemma PlayOrContinueIdempotent(a: FrameAnimation, name: string)
    ensures PlayOrContinueAnimation(PlayOrContinueAnimation(a, name), name) == PlayOrContinueAnimation(a, name)
  {
  }

  function StopAnimation(a: FrameAnimation): (r: FrameAnimation)
    ensures !Playing(r) && r.currentAnimation.None? && r.position == 0.0
    ensures r.animations == a.animations && r.speed == a.speed
  {
    a.(currentAnimation := None, position := 0.0)
  }

  /**
   * The animation being played. None stands for both of the source's falsy
   * results: null when nothing plays, undefined for an unknown name.
   */
  function GetCurrentAnimation(a: FrameAnimation): (r: Option<InitializedAnimation>)
    ensures r.None? <==> !Playing(a) || a.currentAnimation.value !in a.animations
    ensures r.Some? ==> r.value in a.animations.Values && r.value == a.animations[a.currentAnimation.value]
  {
    if Playing(a) && a.currentAnimation.value in a.animations then Some(a.animations[a.currentAnimation.value]) else None
  }

  /** Playing a known animation makes it the current one; an unknown or empty name gives none. */
  lemma PlayThenGetCurrent(a: FrameAnimation, name: string, position: real)
    ensures var r := GetCurrentAnimation(PlayAnimation(a, name, position));
      && (name != "" && name in a.animations <==> r.Some?)
      && (r.Some? ==> r.value == a.animations[name])
  {
  }

  /** A rectangle is only ever found in an animation that getCurrentAnimation returns. */
  lemma RectNeedsCurrentAnimation(a: FrameAnimation)
    requires Ready(a)
    ensures GetCurrentRect(a).Some? ==> GetCurrentAnimation(a).Some?
  {
  }

  // ---------------------------------------------------------------------------
  // Frame lookup

  /** Index of the first frame ending at or after x, or -1 when every frame ends before it. */
  function FirstEndingAtOrAfter(frames: seq<InitializedFrame>, x: real): (k: int)
    ensures -1 <= k < |frames|
    ensures k == -1 <==> forall i :: 0 <= i < |frames| ==> frames[i].relativeEndPosition < x
    ensures k >= 0 ==> x <= frames[k].relativeEndPosition
    ensures k >= 0 ==> forall i :: 0 <= i < k ==> frames[i].relativeEndPosition < x
  {
    if |frames| == 0 then -1
    else if x <= frames[0].relativeEndPosition then 0
    else
      var k := FirstEndingAtOrAfter(frames[1..], x);
      if k == -1 then -1 else k + 1
  }

  /** Pingpong plays the frames forwards over [0, 0.5] and backwards over [0.5, 1]. */
  function Phase(mode: Mode, position: real): (p: real)
    ensures 0.0 <= position <= 1.0 ==> 0.0 <= p <= 1.0
  {
    if mode == Pingpong then (if position <= 0.5 then position * 2.0 else 2.0 - position * 2.0)
    else position
  }

  /** Where on the 0 .. total-duration scale the position points. */
  function SearchPoint(anim: InitializedAnimation, position: real): real
  {
    Phase(anim.mode, position) * anim.relativeUnitsDuration
  }

  /**
   * The rectangle of the first frame ending at or after phase * total
   * duration. None when nothing is playing, and on the source's "unreachable"
   * path where every frame ends before that point.
   */
  function GetCurrentRect(a: FrameAnimation): (r: Option<Aabb>)
    requires Ready(a)
    ensures !Playing(a) ==> r.None?
    ensures Playing(a) ==>
      var anim := a.animations[a.currentAnimation.value];
      var x := SearchPoint(anim, a.position);
      && (r.Some? <==> exists i :: 0 <= i < |anim.frames| && x <= anim.frames[i].relativeEndPosition)
      && (r.Some? ==>
            exists k :: 0 <= k < |anim.frames| && r.value == anim.frames[k].rect
              && x <= anim.frames[k].relativeEndPosition
              && forall i :: 0 <= i < k ==> anim.frames[i].relativeEndPosition < x)
  {
    if !Playing(a) then None
    else
      var anim := a.animations[a.currentAnimation.value];
      var k := FirstEndingAtOrAfter(anim.frames, SearchPoint(anim, a.position));
      if k == -1 then None else Some(anim.frames[k].rect)
  }

  /**
   * For an animation built from non-empty frames with non-negative
   * durations, a position in [0, 1] always selects a frame: the
   * "unreachable" path is indeed unreachable.
   */
  lemma CurrentRectFound(a: FrameAnimation, source: Animation)
    requires Ready(a) && Playing(a)
    requires a.animations[a.currentAnimation.value] == InitAnimation(source)
    requires |source.frames| > 0 && NonNegativeDurations(source.frames)
    requires 0.0 <= a.position <= 1.0
    ensures GetCurrentRect(a).Some?
  {
    var anim := a.animations[a.currentAnimation.value];
    assert |anim.frames| > 0 && anim.relativeUnitsDuration >= 0.0
      && anim.frames[|anim.frames| - 1].relativeEndPosition == anim.relativeUnitsDuration by {
      LastFrameEndsAtTotal(source);
    }
    FrameFound(anim, a.position);
    RectFromFrameIndex(a);
  }

  /** The lookup succeeds exactly when the frame search finds an index. */
  lemma RectFromFrameIndex(a: FrameAnimation)
    requires Ready(a) && Playing(a)
    ensures var anim := a.animations[a.currentAnimation.value];
      var k := FirstEndingAtOrAfter(anim.frames, SearchPoint(anim, a.position));
      (k >= 0 <==> GetCurrentRect(a).Some?) && (k >= 0 ==> GetCurrentRect(a) == Some(anim.frames[k].rect))
  {
  }

  lemma FrameFound(anim: InitializedAnimation, position: real)
    requires |anim.frames| > 0 && anim.relativeUnitsDuration >= 0.0
    requires anim.frames[|anim.frames| - 1].relativeEndPosition == anim.relativeUnitsDuration
    requires 0.0 <= position <= 1.0
    ensures FirstEndingAtOrAfter(anim.frames, SearchPoint(anim, position)) >= 0
  {
    var p := Phase(anim.mode, position);
    var x := SearchPoint(anim, position);
    FractionAtMost(p, anim.relativeUnitsDuration);
    assert x <= anim.relativeUnitsDuration;
    FoundBeforeLast(anim.frames, x);
  }

  lemma FractionAtMost(p: real, t: real)
    requires 0.0 <= p <= 1.0 && t >= 0.0
    ensures p * t <= t
  {
    if t > 0.0 { MulMono(p, 1.0, t); }
  }

  lemma FoundBeforeLast(frames: seq<InitializedFrame>, x: real)
    requires |frames| > 0 && x <= frames[|frames| - 1].relativeEndPosition
    ensures FirstEndingAtOrAfter(frames, x) >= 0
  {
  }

  lemma LastFrameEndsAtTotal(source: Animation)
    requires |source.frames| > 0 && NonNegativeDurations(source.frames)
    ensures var r := InitAnimation(source);
      && |r.frames| == |source.frames|
      && r.frames[|r.frames| - 1].relativeEndPosition == r.relativeUnitsDuration
      && r.relativeUnitsDuration >= 0.0
  {
    InitAnimationPrefixSums(source);
  }

  // ---------------------------------------------------------------------------
  // Sprite sheets

  datatype SheetSize = SheetSize(columns: int, rows: int)

  /** `Math.floor(a / b)` for integers, computed with integer division. */
  function FloorDiv(a: int, b: int): (q: int)
    requires b != 0
    ensures q == ((a as real) / (b as real)).Floor
  {
    if b > 0 then
      EuclidIsFloor(a, b);
      a / b
    else
      EuclidIsFloor(-a, -b);
      assert (a as real) / (b as real) == ((-a) as real) / ((-b) as real);
      (-a) / (-b)
  }

  /** For a positive divisor, integer division rounds the real quotient down. */
  lemma EuclidIsFloor(a: int, b: int)
    requires b > 0
    ensures a / b == ((a as real) / (b as real)).Floor
  {
    var q := a / b;
    var r := a % b;
    assert a == q * b + r;
    assert a as real == q as real * b as real + r as real;
    FloorUnique(a as real, b as real, q, r as real);
  }

  /**
   * The sheet size: the given one, or else how many whole frames fit each
   * way (n frames fit when n·size <= extent < (n + 1)·size).
   */
  function SheetOf(frameSize: Vec2, dimensions: Vec2, sheetSize: Option<SheetSize>): (sheet: SheetSize)
    requires sheetSize.None? ==> frameSize.x != 0.0 && frameSize.y != 0.0
    ensures sheetSize.Some? ==> sheet == sheetSize.value
    ensures sheetSize.None? && frameSize.x > 0.0 && frameSize.y > 0.0 ==>
      && sheet.columns as real * frameSize.x <= dimensions.x < sheet.columns as real * frameSize.x + frameSize.x
      && sheet.rows as real * frameSize.y <= dimensions.y < sheet.rows as real * frameSize.y + frameSize.y
  {
    if sheetSize.Some? then sheetSize.value
    else
      if frameSize.x > 0.0 && frameSize.y > 0.0 then
        FloorBounds(dimensions.x, frameSize.x);
        FloorBounds(dimensions.y, frameSize.y);
        SheetSize((dimensions.x / frameSize.x).Floor, (dimensions.y / frameSize.y).Floor)
      else
        SheetSize((dimensions.x / frameSize.x).Floor, (dimensions.y / frameSize.y).Floor)
  }

  /**
   * Frame i of a sheet read row by row, `columns` frames per row: a
   * frame-sized cell of unit duration at row ⌊i / columns⌋ and, for a
   * positive column count, at column i − row·columns, which lies in [0, columns).
   */
  function SheetFrame(i: nat, columns: int, frameSize: Vec2): (f: Frame)
    requires columns != 0
    ensures f.relativeDuration == 1.0 && f.rect.Width() == frameSize.x && f.rect.Height() == frameSize.y
    ensures columns > 0 ==>
      var row := FloorDiv(i, columns);
      && 0 <= i - row * columns < columns
      && f.rect.left == (i - row * columns) as real * frameSize.x
      && f.rect.top == row as real * frameSize.y
  {
    Frame(FromSize((i % columns) as real * frameSize.x, FloorDiv(i, columns) as real * frameSize.y,
                   frameSize.x, frameSize.y), 1.0)
  }

  /** One frame of unit duration per sheet cell, row by row. */
  method GenerateSpritesheetFrames(frameSize: Vec2, dimensions: Vec2, sheetSize: Option<SheetSize>)
    returns (frames: seq<Frame>)
    requires sheetSize.None? ==> frameSize.x != 0.0 && frameSize.y != 0.0
    ensures var sheet := SheetOf(frameSize, dimensions, sheetSize);
      && |frames| == (if sheet.columns * sheet.rows > 0 then sheet.columns * sheet.rows else 0)
      && (|frames| > 0 ==> sheet.columns != 0)
      && forall i :: 0 <= i < |frames| ==> sheet.columns != 0 && frames[i] == SheetFrame(i, sheet.columns, frameSize)
  {
    var sheet := SheetOf(frameSize, dimensions, sheetSize);
    var columns := sheet.columns;
    var count := columns * sheet.rows;
    frames := [];
    if count <= 0 {
      return;
    }
    assert columns != 0;
    var i := 0;
    while i < count
      invariant 0 <= i <= count
      invariant |frames| == i
      invariant forall k :: 0 <= k < i ==> frames[k] == SheetFrame(k, columns, frameSize)
    {
      var left := (i % columns) as real * frameSize.x;
      var top := FloorDiv(i, columns) as real * frameSize.y;
      frames := frames + [Frame(FromSize(left, top, frameSize.x, frameSize.y), 1.0)];
      i := i + 1;
    }
  }

  /** With the default sheet size every generated frame lies inside the given dimensions. */
  lemma DefaultSheetFramesInside(frameSize: Vec2, dimensions: Vec2, i: nat)
    requires frameSize.x > 0.0 && frameSize.y > 0.0
    requires dimensions.x >= 0.0 && dimensions.y >= 0.0
    requires var sheet := SheetOf(frameSize, dimensions, None);
      sheet.columns != 0 && i < sheet.columns * sheet.rows
    ensures var sheet := SheetOf(frameSize, dimensions, None);
      var rect := SheetFrame(i, sheet.columns, frameSize).rect;
      && 0.0 <= rect.left && rect.Right() <= dimensions.x
      && 0.0 <= rect.top && rect.Bottom() <= dimensions.y
  {
    var sheet := SheetOf(frameSize, dimensions, None);
    SheetFrameInside(i, sheet.columns, sheet.rows, frameSize, dimensions.x, dimensions.y);
  }

  /** SheetCellInside stated for the frame SheetFrame builds. */
  lemma SheetFrameInside(i: nat, columns: int, rows: int, frameSize: Vec2, dx: real, dy: real)
    requires frameSize.x > 0.0 && frameSize.y > 0.0 && dx >= 0.0 && dy >= 0.0
    requires columns as real * frameSize.x <= dx < columns as real * frameSize.x + frameSize.x
    requires rows as real * frameSize.y <= dy
    requires columns != 0 && i < columns * rows
    ensures var rect := SheetFrame(i, columns, frameSize).rect;
      && 0.0 <= rect.left && rect.Right() <= dx
      && 0.0 <= rect.top && rect.Bottom() <= dy
  {
    SheetCellInside(i, columns, rows, frameSize.x, frameSize.y, dx, dy);
  }

  /**
   * The cell arithmetic behind DefaultSheetFramesInside: with `columns` and
   * `rows` the whole numbers of cells that fit the extents, index i's cell
   * (row ⌊i / columns⌋, column i − row·columns) lies inside both extents.
   */
  lemma SheetCellInside(i: int, columns: int, rows: int, width: real, height: real, dx: real, dy: real)
    requires width > 0.0 && height > 0.0 && dx >= 0.0 && dy >= 0.0
    requires columns as real * width <= dx < columns as real * width + width
    requires rows as real * height <= dy
    requires columns != 0 && 0 <= i < columns * rows
    ensures columns > 0
    ensures var row := FloorDiv(i, columns);
      var col := i - row * columns;
      && 0.0 <= col as real * width && col as real * width + width <= dx
      && 0.0 <= row as real * height && row as real * height + height <= dy
  {
    CountNonNegative(columns, width, dx);
    PositiveRows(columns, rows, i);
    var row := FloorDiv(i, columns);
    EuclidIsFloor(i, columns);
    RowInRange(i, columns, rows, row);
    CellFits(i - row * columns, columns, width, dx);
    CellFits(row, rows, height, dy);
  }

  /** A count whose next multiple exceeds a non-negative extent is not negative. */
  lemma CountNonNegative(n: int, size: real, extent: real)
    requires size > 0.0 && extent >= 0.0
    requires extent < n as real * size + size
    ensures n >= 0
  {
    if n < 0 {
      MulMono((n + 1) as real, 0.0, size);
    }
  }

  /** With positive columns, a valid index needs a positive row count. */
  lemma PositiveRows(columns: int, rows: int, i: int)
    requires columns > 0 && 0 <= i < columns * rows
    ensures rows > 0
  {
    if rows < 0 {
      MulIntMono(0, columns, -rows);
    }
  }

  /** An index below columns * rows lies in one of the first `rows` rows. */
  lemma RowInRange(i: int, columns: int, rows: int, row: int)
    requires columns > 0 && 0 <= i < columns * rows
    requires 0 <= i - row * columns < columns
    ensures 0 <= row < rows
  {
    if row >= rows {
      MulIntMono(rows, row, columns);
    } else if row < 0 {
      MulIntMono(1, -row, columns);
    }
  }

  lemma MulIntMono(a: int, b: int, c: int)
    requires 0 <= a <= b && c > 0
    ensures a * c <= b * c
  {
  }

  /** Cell `k` of `n` cells of `size`, where n cells fit in the extent, ends within the extent. */
  lemma CellFits(k: int, n: int, size: real, extent: real)
    requires size > 0.0 && 0 <= k < n
    requires n as real * size <= extent
    ensures 0.0 <= k as real * size && k as real * size + size <= extent
  {
    MulMono(0.0, k as real, size);
    MulMono((k + 1) as real, n as real, size);
  }

  /** Distinct indices give distinct rectangles: the frames tile the sheet without repeats. */
  lemma SheetFramesDistinct(i: nat, j: nat, columns: int, frameSize: Vec2)
    requires columns > 0 && frameSize.x > 0.0 && frameSize.y > 0.0
    requires i != j
    ensures SheetFrame(i, columns, frameSize).rect != SheetFrame(j, columns, frameSize).rect
  {
    var ri, rj := FloorDiv(i, columns), FloorDiv(j, columns);
    var fi, fj := SheetFrame(i, columns, frameSize), SheetFrame(j, columns, frameSize);
    if ri != rj {
      ScaleInjective(ri, rj, frameSize.y);
      assert fi.rect.top != fj.rect.top;
    } else {
      ScaleInjective(i - ri * columns, j - rj * columns, frameSize.x);
      assert fi.rect.left != fj.rect.left;
    }
  }

  lemma ScaleInjective(a: int, b: int, s: real)
    requires s > 0.0
    ensures a as real * s == b as real * s ==> a == b
  {
    if a < b { MulMono(a as real, b as real, s); }
    if b < a { MulMono(b as real, a as real, s); }
  }
}

=== FILE: game_loop.dfy ===
/**
 * The fixed-timestep loop of src/core/game-loop.ts. The clock and the host's
 * frame request / cancel facility are parameters: `now` is the clock reading
 * and `frameId` the handle a frame request returns. Callbacks are recorded
 * as a list of the calls the loop makes, in order.
 */
module GameLoop {
  import opened Wrappers

  /** Upper bound on the raw real-time delta of one step, in milliseconds. */
  const MaxTimestep: real := 250.0

  datatype Loop = Loop(
    timestep: real,
    accumulator: real,
    lastUpdateTime: Option<real>,   // None stands for the source's NaN
    nextFrameId: Option<int>,       // None stands for the source's NaN
    lastDelta: real)

  datatype Callback = FixedUpdate(dt: real) | VariableUpdate(dt: real, alpha: real)

  ghost predicate Valid(g: Loop)
  {
    && g.timestep > 0.0
    && 0.0 <= g.accumulator < g.timestep
    && g.lastDelta >= 0.0
  }

  /**
   * The constructor accepts any timestep; the loop is valid, and can step,
   * exactly when the timestep is positive.
   */
  function New(timestep: real): (g: Loop)
    ensures Valid(g) <==> timestep > 0.0
    ensures g.timestep == timestep
    ensures g.accumulator == 0.0 && g.lastDelta == timestep
    ensures g.lastUpdateTime.None? && g.nextFrameId.None?
  {
    Loop(timestep, 0.0, None, None, timestep)
  }

  function Min(a: real, b: real): real { if a <= b then a else b }
  function Max(a: real, b: real): real { if a >= b then a else b }

  /** The raw delta, clamped to [0, MaxTimestep]. */
  function Clamp(raw: real): (c: real)
    ensures 0.0 <= c <= MaxTimestep
    ensures 0.0 <= raw <= MaxTimestep ==> c == raw
    ensures raw < 0.0 ==> c == 0.0
    ensures raw > MaxTimestep ==> c == MaxTimestep
  {
    Max(0.0, Min(raw, MaxTimestep))
  }

  /** Exponential smoothing: move one fifth of the way from `previous` towards `current`. */
  function Smooth(previous: real, current: real): (d: real)
    ensures Min(previous, current) <= d <= Max(previous, current)
    ensures 5.0 * (d - previous) == current - previous
  {
    previous * 0.8 + current * 0.2
  }

  /** Runs the fixed update while a whole timestep is accumulated. */
  method Drain(acc0: real, timestep: real) returns (acc: real, calls: seq<Callback>)
    requires timestep > 0.0 && acc0 >= 0.0
    ensures 0.0 <= acc < timestep
    ensures acc + |calls| as real * timestep == acc0
    ensures forall i :: 0 <= i < |calls| ==> calls[i] == FixedUpdate(timestep)
  {
    acc := acc0;
    calls := [];
    while acc >= timestep
      invariant acc >= 0.0
      invariant acc + |calls| as real * timestep == acc0
      invariant forall i :: 0 <= i < |calls| ==> calls[i] == FixedUpdate(timestep)
      decreases (acc0 / timestep).Floor - |calls|
    {
      WholeStepsBound(acc0, timestep, |calls| + 1);
      calls := calls + [FixedUpdate(timestep)];
      acc := acc - timestep;
    }
  }

  /** An amount holding n whole timesteps has at least n whole timesteps by division. */
  lemma WholeStepsBound(total: real, timestep: real, n: nat)
    requires timestep > 0.0 && n as real * timestep <= total
    ensures (total / timestep).Floor >= n
  {
    assert n as real <= total / timestep by {
      assert (total / timestep) * timestep == total;
    }
  }

  /**
   * The calls of one frame that starts with `before` accumulated and adds
   * `delta`, leaving `after`: one fixed update per whole timestep in
   * before + delta, none of them lost or invented, then one variable update
   * with the remaining fraction of a timestep as alpha.
   */
  ghost predicate FrameCalls(calls: seq<Callback>, timestep: real, before: real, delta: real, after: real)
    requires timestep > 0.0
  {
    && |calls| >= 1
    && (forall i :: 0 <= i < |calls| - 1 ==> calls[i] == FixedUpdate(timestep))
    && calls[|calls| - 1] == VariableUpdate(delta, after / timestep)
    && after + (|calls| - 1) as real * timestep == before + delta
    && |calls| - 1 == ((before + delta) / timestep).Floor
  }

  /**
   * One frame: clamp and smooth the real-time delta, add it to the
   * accumulator, run k fixed updates of exactly one timestep each, then one
   * variable update with the interpolation fraction alpha in [0, 1).
   */
  method Step(g: Loop, now: real) returns (r: Loop, calls: seq<Callback>)
    requires Valid(g)
    ensures Valid(r)
    ensures r.timestep == g.timestep && r.nextFrameId == g.nextFrameId
    ensures r.lastUpdateTime == Some(now)
    ensures r.lastDelta == Smooth(g.lastDelta, Clamp(now - g.lastUpdateTime.GetOr(now)))
    ensures FrameCalls(calls, g.timestep, g.accumulator, r.lastDelta, r.accumulator)
    ensures 0.0 <= r.accumulator / g.timestep < 1.0
  {
    var lastUpdateTime := g.lastUpdateTime.GetOr(now);
    var currentDelta := Clamp(now - lastUpdateTime);
    var delta := Smooth(g.lastDelta, currentDelta);
    var acc, fixed := Drain(g.accumulator + delta, g.timestep);
    r := Loop(g.timestep, acc, Some(now), g.nextFrameId, delta);
    calls := fixed + [VariableUpdate(delta, acc / g.timestep)];
    assert |calls| - 1 == |fixed|;
    assert forall i :: 0 <= i < |fixed| ==> calls[i] == fixed[i];
    FixedUpdateCount(g.accumulator + delta, acc, |fixed|, g.timestep);
  }

  /** The number of fixed updates is the number of whole timesteps accumulated. */
  lemma FixedUpdateCount(total: real, rest: real, k: nat, timestep: real)
    requires timestep > 0.0 && 0.0 <= rest < timestep
    requires rest + k as real * timestep == total
    ensures (total / timestep).Floor == k
    ensures 0.0 <= rest / timestep < 1.0
  {
    assert total / timestep == k as real + rest / timestep;
  }

  /** Less than one timestep in total leaves no room for a whole one. */
  lemma OneStepAtMost(rest: real, k: nat, timestep: real, total: real)
    requires timestep > 0.0 && rest >= 0.0 && total < timestep
    requires rest + k as real * timestep == total
    ensures k == 0
  {
    if k >= 1 {
      AtLeastOneStep(k as real, timestep);
    }
  }

  lemma AtLeastOneStep(c: real, timestep: real)
    requires c >= 1.0 && timestep > 0.0
    ensures c * timestep >= timestep
  {
    assert c * timestep == timestep + (c - 1.0) * timestep;
  }

  lemma ScaleDiv(c: real, t: real)
    requires t > 0.0
    ensures (c * t) / t == c
  {
    var q := (c * t) / t;
    assert q * t == c * t;
  }

  /** One frame callback: a step, then a request for the next frame. */
  method RunFrame(g: Loop, now: real, frameId: int) returns (r: Loop, calls: seq<Callback>)
    requires Valid(g)
    ensures Valid(r)
    ensures r.nextFrameId == Some(frameId)
    ensures r.lastUpdateTime == Some(now) && r.timestep == g.timestep
    ensures r.lastDelta == Smooth(g.lastDelta, Clamp(now - g.lastUpdateTime.GetOr(now)))
    ensures FrameCalls(calls, g.timestep, g.accumulator, r.lastDelta, r.accumulator)
  {
    r, calls := Step(g, now);
    r := r.(nextFrameId := Some(frameId));
  }

  /** The resets `start` performs before running its first frame. */
  function Reset(g: Loop, now: real): (r: Loop)
    requires Valid(g)
    ensures Valid(r)
    ensures r.accumulator == 0.0 && r.lastDelta == g.timestep && r.lastUpdateTime == Some(now)
    ensures r.timestep == g.timestep && r.nextFrameId == g.nextFrameId
  {
    g.(lastUpdateTime := Some(now), accumulator := 0.0, lastDelta := g.timestep)
  }

  /**
   * Resets the loop at clock reading `now0`, then runs a first frame whose
   * step reads the clock again as `now1`. The first smoothed delta moves one
   * fifth of the way from one timestep towards the clamped gap between the
   * readings; the accumulator starts from zero, so the frame makes one fixed
   * update per whole timestep in that delta (none unless the gap reaches a
   * timestep) and then its variable update. When the second reading is no
   * later than the first, the gap clamps to zero: no fixed update and alpha 0.8.
   * A frame already pending is not cancelled: it is returned as `leftPending`,
   * and a later `Stop` cancels only the new frame.
   */
  method Start(g: Loop, now0: real, now1: real, frameId: int) returns (r: Loop, calls: seq<Callback>, leftPending: Option<int>)
    requires Valid(g)
    ensures Valid(r)
    ensures r.timestep == g.timestep
    ensures r.nextFrameId == Some(frameId) && r.lastUpdateTime == Some(now1)
    ensures r.lastDelta == Smooth(g.timestep, Clamp(now1 - now0))
    ensures FrameCalls(calls, g.timestep, 0.0, r.lastDelta, r.accumulator)
    ensures now1 - now0 < g.timestep ==> |calls| == 1
    ensures now1 <= now0 ==> calls == [VariableUpdate(0.8 * g.timestep, 0.8)] && r.accumulator == 0.8 * g.timestep
    ensures leftPending == g.nextFrameId && Stop(r).1 == Some(frameId)
  {
    // start does not cancel a frame that is already pending
    leftPending := g.nextFrameId;
    var reset := Reset(g, now0);
    // runFrame: one step, then the next frame request
    r, calls := Step(reset, now1);
    r := r.(nextFrameId := Some(frameId));
    FirstFrame(g.timestep, now1 - now0, calls, r.lastDelta, r.accumulator);
  }

  /**
   * The arithmetic of the first frame after a reset: a gap shorter than a
   * timestep leaves no whole timestep, and a gap of zero or less leaves
   * exactly 0.8 of one in the accumulator and as alpha.
   */
  lemma FirstFrame(timestep: real, gap: real, calls: seq<Callback>, delta: real, rest: real)
    requires timestep > 0.0 && 0.0 <= rest < timestep
    requires delta == Smooth(timestep, Clamp(gap))
    requires FrameCalls(calls, timestep, 0.0, delta, rest)
    ensures gap < timestep ==> |calls| == 1
    ensures gap <= 0.0 ==> calls == [VariableUpdate(0.8 * timestep, 0.8)] && rest == 0.8 * timestep
  {
    if gap < timestep {
      OneStepAtMost(rest, |calls| - 1, timestep, delta);
    }
    if gap <= 0.0 {
      ScaleDiv(0.8, timestep);
    }
  }

  /**
   * Cancels the pending frame, if any, and zeroes the accumulator; a no-op
   * when no frame is pending. The second component is the cancelled frame.
   */
  function Stop(g: Loop): (res: (Loop, Option<int>))
    requires Valid(g)
    ensures Valid(res.0)
    ensures res.0.nextFrameId.None?
    ensures res.1 == g.nextFrameId
    ensures g.nextFrameId.None? ==> res.0 == g
    ensures g.nextFrameId.Some? ==> res.0.accumulator == 0.0
    ensures res.0.timestep == g.timestep && res.0.lastDelta == g.lastDelta && res.0.lastUpdateTime == g.lastUpdateTime
  {
    if g.nextFrameId.Some? then
      (g.(nextFrameId := None, accumulator := 0.0), g.nextFrameId)
    else
      (g, None)
  }

  /**
   * With a 100 ms timestep and a smoothed delta of 100 ms, a 250 ms frame
   * gap yields a smoothed delta of 130 ms: one fixed update and alpha 0.3.
   */
  method StepAfterStall() returns (calls: seq<Callback>)
    ensures calls == [FixedUpdate(100.0), VariableUpdate(130.0, 0.3)]
  {
    var g := Loop(100.0, 0.0, Some(0.0), None, 100.0);
    var r;
    r, calls := Step(g, 250.0);
    assert Clamp(250.0) == 250.0;
    assert r.lastDelta == 130.0;
    assert |calls| - 1 == (130.0 / 100.0).Floor;
    assert |calls| == 2;
    assert r.accumulator == 30.0;
  }
}

=== FILE: geometry.dfy ===
/**
 * Plain 2-D vectors and axis-aligned bounding boxes (src/types/vec2.ts,
 * src/types/aabb.ts). JavaScript numbers are modelled as exact reals.
 */
module Geometry {

  datatype Vec2 = Vec2(x: real, y: real)

  function Min(a: real, b: real): real { if a <= b then a else b }
  function Max(a: real, b: real): real { if a >= b then a else b }

  /** A box stored as its top-left corner and its size. */
  datatype Aabb = Aabb(left: real, top: real, size: Vec2) {

    function Width(): real { size.x }
    function Height(): real { size.y }

    /** The right edge: left edge plus width. */
    function Right(): (r: real)
      ensures r - left == Width()
    {
      left + size.x
    }

    /** The bottom edge: top edge plus height. */
    function Bottom(): (r: real)
      ensures r - top == Height()
    {
      top + size.y
    }

    /** Half of the width. */
    function HalfWidth(): (r: real)
      ensures r + r == Width()
    {
      size.x / 2.0
    }

    /** Half of the height. */
    function HalfHeight(): (r: real)
      ensures r + r == Height()
    {
      size.y / 2.0
    }
  }

  /** A box with exactly the given left, top, width and height. */
  function FromSize(left: real, top: real, width: real, height: real): (b: Aabb)
    ensures b.left == left && b.top == top
    ensures b.Width() == width && b.Height() == height
  {
    Aabb(left, top, Vec2(width, height))
  }

  /** A box of the given size centred on the origin. */
  function FromCenteredSize(width: real, height: real): (b: Aabb)
    ensures b.Width() == width && b.Height() == height
    ensures b.left + b.Right() == 0.0 && b.top + b.Bottom() == 0.0
    ensures b.Right() == b.HalfWidth() && b.Bottom() == b.HalfHeight()
  {
    FromSize(-width / 2.0, -height / 2.0, width, height)
  }

  /** `x` lies in both closed intervals [lo1, hi1] and [lo2, hi2]. */
  ghost predicate InBoth(x: real, lo1: real, hi1: real, lo2: real, hi2: real)
  {
    lo1 <= x <= hi1 && lo2 <= x <= hi2
  }

  /** The two closed intervals have a point in common. */
  ghost predicate SharePoint(lo1: real, hi1: real, lo2: real, hi2: real)
  {
    exists x :: InBoth(x, lo1, hi1, lo2, hi2)
  }

  /**
   * `o` is the length of the common part of the two closed intervals: it is
   * non-negative exactly when they share a point, no two shared points are
   * further apart than `o`, and when it is non-negative two shared points
   * are exactly `o` apart.
   */
  ghost predicate SharedLength(lo1: real, hi1: real, lo2: real, hi2: real, o: real)
  {
    && (o >= 0.0 <==> SharePoint(lo1, hi1, lo2, hi2))
    && (forall x, y :: InBoth(x, lo1, hi1, lo2, hi2) && InBoth(y, lo1, hi1, lo2, hi2) ==> y - x <= o)
    && (o >= 0.0 ==> exists x :: InBoth(x, lo1, hi1, lo2, hi2) && InBoth(x + o, lo1, hi1, lo2, hi2))
  }

  /** The common part of two closed intervals runs from the larger start to the smaller end. */
  lemma CommonInterval(lo1: real, hi1: real, lo2: real, hi2: real)
    ensures SharedLength(lo1, hi1, lo2, hi2, Min(hi1, hi2) - Max(lo1, lo2))
  {
    var s := Max(lo1, lo2);
    var o := Min(hi1, hi2) - s;
    if o >= 0.0 {
      assert InBoth(s, lo1, hi1, lo2, hi2) && InBoth(s + o, lo1, hi1, lo2, hi2);
    }
  }

  /**
   * Closed-interval intersection test: touching edges count as intersecting.
   * For boxes of non-negative size it holds exactly when the boxes' extents
   * share a point on both axes.
   */
  function Intersect(a: Aabb, b: Aabb): (r: bool)
    ensures a.Width() >= 0.0 && a.Height() >= 0.0 && b.Width() >= 0.0 && b.Height() >= 0.0 ==>
      (r <==> SharePoint(a.left, a.Right(), b.left, b.Right()) && SharePoint(a.top, a.Bottom(), b.top, b.Bottom()))
  {
    CommonInterval(a.left, a.Right(), b.left, b.Right());
    CommonInterval(a.top, a.Bottom(), b.top, b.Bottom());
    && a.left <= b.Right()
    && a.Right() >= b.left
    && a.top <= b.Bottom()
    && a.Bottom() >= b.top
  }

  /**
   * Length of the shared extent on each axis: the length of the common part
   * of the two boxes' extents, negative when they have no point in common.
   */
  function GetOverlap(a: Aabb, b: Aabb): (o: Vec2)
    ensures SharedLength(a.left, a.Right(), b.left, b.Right(), o.x)
    ensures SharedLength(a.top, a.Bottom(), b.top, b.Bottom(), o.y)
    ensures o.x <= a.Width() && o.x <= b.Width()
    ensures o.y <= a.Height() && o.y <= b.Height()
  {
    CommonInterval(a.left, a.Right(), b.left, b.Right());
    CommonInterval(a.top, a.Bottom(), b.top, b.Bottom());
    Vec2(Min(a.Right(), b.Right()) - Max(a.left, b.left),
         Min(a.Bottom(), b.Bottom()) - Max(a.top, b.top))
  }

  lemma IntersectSymmetric(a: Aabb, b: Aabb)
    ensures Intersect(a, b) <==> Intersect(b, a)
  {
  }

  lemma OverlapSymmetric(a: Aabb, b: Aabb)
    ensures GetOverlap(a, b) == GetOverlap(b, a)
  {
  }

  /** For boxes of non-negative size, intersection is exactly "no negative overlap". */
  lemma IntersectIffOverlapNonNegative(a: Aabb, b: Aabb)
    requires a.Width() >= 0.0 && a.Height() >= 0.0
    requires b.Width() >= 0.0 && b.Height() >= 0.0
    ensures Intersect(a, b) <==> (GetOverlap(a, b).x >= 0.0 && GetOverlap(a, b).y >= 0.0)
  {
  }

  /** Boxes that only touch along a vertical edge intersect, with zero horizontal overlap. */
  lemma TouchingEdgesIntersect(a: Aabb, b: Aabb)
    requires a.Width() >= 0.0 && b.Width() >= 0.0
    requires a.Right() == b.left
    requires a.top <= b.Bottom() && a.Bottom() >= b.top
    ensures Intersect(a, b)
    ensures GetOverlap(a, b).x == 0.0
  {
  }
}

=== FILE: iterable.dfy ===
/**
 * `range` of src/utils/iterable.ts: the numbers from `from` (inclusive) up
 * to `to` (exclusive) in increments of `step`, over exact reals.
 */
module Iterable {

  /** The default step: Math.sign(to - from), or 1 when that is 0. */
  function DefaultStep(from: real, to: real): (s: real)
    ensures s == 1.0 || (s == -1.0 && to < from)
  {
    if to > from then 1.0 else if to < from then -1.0 else 1.0
  }

  /** ceil(x) for a real x. */
  function Ceil(x: real): int
  {
    -((-x).Floor)
  }

  /**
   * The loop `for (i = from; i < to; i += step)`. It terminates only for a
   * positive step or an empty range, which is what the precondition states.
   */
  function Range(from: real, to: real, step: real): (r: seq<real>)
    requires step > 0.0 || from >= to
    ensures forall k :: 0 <= k < |r| ==> r[k] == from + k as real * step
    ensures step > 0.0 ==> |r| == (if from < to then Ceil((to - from) / step) else 0)
    ensures from >= to ==> r == []
    decreases if from < to then Ceil((to - from) / step) else 0
  {
    if from < to then
      CeilStep(to - from, step);
      var rest := Range(from + step, to, step);
      var r := [from] + rest;
      assert forall k :: 0 <= k < |r| ==> r[k] == from + k as real * step by {
        forall k | 0 <= k < |r|
          ensures r[k] == from + k as real * step
        {
          if k > 0 {
            assert r[k] == rest[k - 1];
            assert rest[k - 1] == from + step + (k - 1) as real * step;
          }
        }
      }
      r
    else []
  }

  /** Taking one step off the distance removes exactly one element. */
  lemma CeilStep(d: real, step: real)
    requires d > 0.0 && step > 0.0
    ensures Ceil(d / step) >= 1
    ensures Ceil((d - step) / step) == Ceil(d / step) - 1
    ensures d - step > 0.0 ==> Ceil((d - step) / step) >= 1
    ensures d - step <= 0.0 ==> Ceil(d / step) == 1
  {
    var q := d / step;
    var q' := (d - step) / step;
    assert q * step == d;
    assert q' * step == d - step;
    assert q' == q - 1.0 by {
      assert (d - step) / step == d / step - step / step;
      assert step / step == 1.0;
    }
    assert q > 0.0;
    if d - step <= 0.0 {
      assert q <= 1.0;
    }
  }

  /** `range` with its default step. */
  function RangeDefault(from: real, to: real): (r: seq<real>)
    ensures r == Range(from, to, 1.0)
  {
    var step := DefaultStep(from, to);
    Range(from, to, step)
  }

  /** Every element lies in [from, to) and consecutive elements differ by the step. */
  lemma RangeBounds(from: real, to: real, step: real)
    requires step > 0.0
    ensures var r := Range(from, to, step);
      && (forall k :: 0 <= k < |r| ==> from <= r[k] < to)
      && (forall k :: 0 <= k < |r| - 1 ==> r[k + 1] - r[k] == step)
  {
    var r := Range(from, to, step);
    forall k | 0 <= k < |r|
      ensures from <= r[k] < to
    {
      ElementBelowEnd(to - from, step, k);
    }
  }

  /** Fewer than ceil(d / step) whole steps stay below d. */
  lemma ElementBelowEnd(d: real, step: real, k: nat)
    requires step > 0.0 && d > 0.0
    requires k < Ceil(d / step)
    ensures k as real * step < d
  {
    var q := d / step;
    assert q * step == d;
    assert k as real < q;
  }

  /** For integral bounds the default range is from, from + 1, ..., to - 1. */
  lemma RangeIntegers(from: int, to: int)
    ensures var r := RangeDefault(from as real, to as real);
      && |r| == (if from < to then to - from else 0)
      && forall k :: 0 <= k < |r| ==> r[k] == (from + k) as real
  {
    if from < to {
      assert Ceil((to as real - from as real) / 1.0) == to - from;
    }
  }
}

=== FILE: tracking_table.dfy ===
/**
 * The per-aspect tracking table of src/core/tracking-table.ts: a list of
 * (entity, component tuple) entries plus an entity -> position index.
 * Insertion appends; removal swaps the entry with the last one and shrinks.
 */
module TrackingTable {
  import opened Wrappers

  type TypeName = string

  datatype Entry<E, C> = Entry(entity: E, components: seq<C>)

  datatype Table<E, C> = Table(componentTypes: seq<TypeName>, entries: seq<Entry<E, C>>, indices: map<E, int>)

  /** The index map and the entry list are exact inverses of each other. */
  ghost predicate Valid<E, C>(t: Table<E, C>)
  {
    && (forall e :: e in t.indices ==> 0 <= t.indices[e] < |t.entries| && t.entries[t.indices[e]].entity == e)
    && (forall i :: 0 <= i < |t.entries| ==> t.entries[i].entity in t.indices && t.indices[t.entries[i].entity] == i)
  }

  predicate Tracked<E, C>(t: Table<E, C>, e: E)
  {
    e in t.indices
  }

  /** A table with the given component types and no entries. */
  function Empty<E, C>(types: seq<TypeName>): (t: Table<E, C>)
    ensures Valid(t)
    ensures t.componentTypes == types && |t.entries| == 0
  {
    Table(types, [], map[])
  }

  /** In a valid table no entity occupies two entries. */
  lemma NoDuplicates<E, C>(t: Table<E, C>, i: int, j: int)
    requires Valid(t)
    requires 0 <= i < |t.entries| && 0 <= j < |t.entries|
    requires t.entries[i].entity == t.entries[j].entity
    ensures i == j
  {
    assert t.indices[t.entries[i].entity] == i;
  }

  /** Exchanges two entries and re-points both entities' indices. */
  function Swap<E, C>(t: Table<E, C>, a: int, b: int): (r: Table<E, C>)
    requires Valid(t)
    requires 0 <= a < |t.entries| && 0 <= b < |t.entries|
    ensures Valid(r)
    ensures r.componentTypes == t.componentTypes
    ensures |r.entries| == |t.entries| && r.indices.Keys == t.indices.Keys
    ensures r.entries[a] == t.entries[b] && r.entries[b] == t.entries[a]
    ensures forall k :: 0 <= k < |t.entries| && k != a && k != b ==> r.entries[k] == t.entries[k]
    ensures multiset(r.entries) == multiset(t.entries)
  {
    var ea := t.entries[a];
    var eb := t.entries[b];
    SwapKeepsValid(t, a, b);
    Table(t.componentTypes, t.entries[a := eb][b := ea], t.indices[ea.entity := b][eb.entity := a])
  }

  lemma SwapKeepsValid<E, C>(t: Table<E, C>, a: int, b: int)
    requires Valid(t)
    requires 0 <= a < |t.entries| && 0 <= b < |t.entries|
    ensures var ea := t.entries[a];
      var eb := t.entries[b];
      Valid(Table(t.componentTypes, t.entries[a := eb][b := ea], t.indices[ea.entity := b][eb.entity := a]))
  {
    var ea := t.entries[a];
    var eb := t.entries[b];
    var entries := t.entries[a := eb][b := ea];
    var indices := t.indices[ea.entity := b][eb.entity := a];
    if a != b && ea.entity == eb.entity { NoDuplicates(t, a, b); }
    forall e | e in indices
      ensures 0 <= indices[e] < |entries| && entries[indices[e]].entity == e
    {
      if e != ea.entity && e != eb.entity {
        var k := t.indices[e];
        assert k != a && k != b;
      }
    }
    forall i | 0 <= i < |entries|
      ensures entries[i].entity in indices && indices[entries[i].entity] == i
    {
      if i != a && i != b {
        assert entries[i] == t.entries[i];
        if t.entries[i].entity == ea.entity { NoDuplicates(t, i, a); }
        if t.entries[i].entity == eb.entity { NoDuplicates(t, i, b); }
      }
    }
  }

  /** The entry tracking `e`, or None when `e` is not tracked. */
  function GetEntityData<E, C>(t: Table<E, C>, e: E): (r: Option<Entry<E, C>>)
    requires Valid(t)
    ensures r.None? <==> (forall i :: 0 <= i < |t.entries| ==> t.entries[i].entity != e)
    ensures r.Some? ==> r.value.entity == e && r.value in t.entries
  {
    if e in t.indices then Some(t.entries[t.indices[e]]) else None
  }

  /** The entries in table order; each names a tracked entity, at the position its index records. */
  function GetEntries<E, C>(t: Table<E, C>): (r: seq<Entry<E, C>>)
    requires Valid(t)
    ensures |r| == |t.entries|
    ensures forall i :: 0 <= i < |r| ==> Tracked(t, r[i].entity) && t.indices[r[i].entity] == i
    ensures forall e | e in t.indices :: exists i :: 0 <= i < |r| && r[i].entity == e
  {
    t.entries
  }

  /** The component types the table was built for. */
  function GetComponentTypes<E, C>(t: Table<E, C>): seq<TypeName>
  {
    t.componentTypes
  }

  /**
   * The component types are fixed at construction: adding, removing and
   * swapping entries never changes what getComponentTypes reports.
   */
  lemma ComponentTypesFixed<E, C>(types: seq<TypeName>, active: seq<Entry<E, C>>, e: E, components: seq<C>)
    ensures var t := Build(types, active);
      && GetComponentTypes(t) == types
      && GetComponentTypes(AddIfNone(t, e, components)) == types
      && GetComponentTypes(RemoveIfExists(t, e)) == types
  {
  }

  /**
   * Tracks `e` with the given components: an untracked entity is appended at
   * the end, a tracked one has its component tuple replaced in place.
   */
  function AddIfNone<E, C>(t: Table<E, C>, e: E, components: seq<C>): (r: Table<E, C>)
    requires Valid(t)
    ensures Valid(r)
    ensures r.componentTypes == t.componentTypes
    ensures e in r.indices && r.entries[r.indices[e]] == Entry(e, components)
    ensures r.indices.Keys == t.indices.Keys + {e}
    ensures e !in t.indices ==>
      && |r.entries| == |t.entries| + 1
      && r.indices[e] == |t.entries|
      && r.entries[..|t.entries|] == t.entries
      && (forall x :: x in t.indices ==> r.indices[x] == t.indices[x])
    ensures e in t.indices ==>
      && |r.entries| == |t.entries|
      && r.indices == t.indices
      && (forall k :: 0 <= k < |t.entries| && k != t.indices[e] ==> r.entries[k] == t.entries[k])
  {
    if e in t.indices then
      Table(t.componentTypes, t.entries[t.indices[e] := Entry(e, components)], t.indices)
    else
      Table(t.componentTypes, t.entries + [Entry(e, components)], t.indices[e := |t.entries|])
  }

  /**
   * Stops tracking `e`: its slot receives the former last entry and the list
   * shrinks by one. A no-op when `e` is not tracked.
   */
  function RemoveIfExists<E, C>(t: Table<E, C>, e: E): (r: Table<E, C>)
    requires Valid(t)
    ensures Valid(r)
    ensures r.componentTypes == t.componentTypes
    ensures e !in r.indices
    ensures e !in t.indices ==> r == t
    ensures e in t.indices ==>
      && |r.entries| == |t.entries| - 1
      && r.indices.Keys == t.indices.Keys - {e}
      && (forall k :: 0 <= k < |r.entries| && k != t.indices[e] ==> r.entries[k] == t.entries[k])
      && (t.indices[e] < |r.entries| ==> r.entries[t.indices[e]] == t.entries[|t.entries| - 1])
      && multiset(r.entries) + multiset{t.entries[t.indices[e]]} == multiset(t.entries)
  {
    if e !in t.indices then t
    else
      var index := t.indices[e];
      var last := |t.entries| - 1;
      var s := Swap(t, index, last);
      RemoveTracked(t, e);
      Table(t.componentTypes, s.entries[..last], s.indices - {e})
  }

  /** The swap-with-last-and-truncate step for a tracked entity. */
  lemma RemoveTracked<E, C>(t: Table<E, C>, e: E)
    requires Valid(t) && e in t.indices
    ensures var index := t.indices[e];
      var last := |t.entries| - 1;
      var s := Swap(t, index, last);
      var r := Table(t.componentTypes, s.entries[..last], s.indices - {e});
      && Valid(r)
      && |r.entries| == last
      && r.indices.Keys == t.indices.Keys - {e}
      && (forall k :: 0 <= k < |r.entries| && k != index ==> r.entries[k] == t.entries[k])
      && (index < |r.entries| ==> r.entries[index] == t.entries[last])
      && multiset(r.entries) + multiset{t.entries[index]} == multiset(t.entries)
  {
    var index := t.indices[e];
    var last := |t.entries| - 1;
    var s := Swap(t, index, last);
    assert s.entries[last] == t.entries[index];
    DropLast(s, e);
  }

  /** Dropping the last entry together with its entity's index keeps the table valid. */
  lemma DropLast<E, C>(s: Table<E, C>, e: E)
    requires Valid(s) && |s.entries| > 0
    requires s.entries[|s.entries| - 1].entity == e
    ensures Valid(Table(s.componentTypes, s.entries[..|s.entries| - 1], s.indices - {e}))
    ensures multiset(s.entries[..|s.entries| - 1]) + multiset{s.entries[|s.entries| - 1]} == multiset(s.entries)
  {
    var last := |s.entries| - 1;
    var r := Table(s.componentTypes, s.entries[..last], s.indices - {e});
    assert s.entries == s.entries[..last] + [s.entries[last]];
    forall x | x in r.indices
      ensures 0 <= r.indices[x] < |r.entries| && r.entries[r.indices[x]].entity == x
    {
      assert s.indices[x] != last;
    }
    forall i | 0 <= i < |r.entries|
      ensures r.entries[i].entity in r.indices && r.indices[r.entries[i].entity] == i
    {
      if s.entries[i].entity == e { NoDuplicates(s, i, last); }
    }
  }

  /**
   * The constructor: an empty table into which every active entry is added,
   * in order, with AddIfNone.
   */
  function Build<E, C>(types: seq<TypeName>, active: seq<Entry<E, C>>): (t: Table<E, C>)
    ensures Valid(t)
    ensures t.componentTypes == types
    ensures |t.entries| <= |active|
  {
    if |active| == 0 then Empty(types)
    else
      var last := active[|active| - 1];
      AddIfNone(Build(types, active[..|active| - 1]), last.entity, last.components)
  }

  /** Position of the last entry for `e` in `active`, or -1 when there is none. */
  function LastIndexOf<E(==), C>(active: seq<Entry<E, C>>, e: E): (k: int)
    ensures -1 <= k < |active|
    ensures k == -1 <==> forall j :: 0 <= j < |active| ==> active[j].entity != e
    ensures k >= 0 ==> active[k].entity == e && forall j :: k < j < |active| ==> active[j].entity != e
  {
    if |active| == 0 then -1
    else if active[|active| - 1].entity == e then |active| - 1
    else LastIndexOf(active[..|active| - 1], e)
  }

  /**
   * Building from a list is the same as tracking each entity that occurs in
   * it, holding the component tuple of its LAST occurrence.
   */
  lemma {:induction false} BuildContents<E, C>(types: seq<TypeName>, active: seq<Entry<E, C>>, e: E)
    ensures Tracked(Build(types, active), e) <==> LastIndexOf(active, e) >= 0
    ensures LastIndexOf(active, e) >= 0 ==>
              GetEntityData(Build(types, active), e) == Some(active[LastIndexOf(active, e)])
  {
    if |active| > 0 {
      var n := |active| - 1;
      BuildContents(types, active[..n], e);
      if active[n].entity == e {
        assert active[n] == Entry(e, active[n].components);
      }
    }
  }
}

=== FILE: wrappers.dfy ===
/** The source's `null` / `undefined` results, as an explicit optional value. */
module Wrappers {

  datatype Option<+T> = None | Some(value: T) {

    /** Returns the value held in Some, or the given default when None. */
    function GetOr(default: T): T
    {
      match this
      case Some(v) => v
      case None => default
    }
  }
}
